=== FILE: README.md ===
# Fabric JDBC driver core, modelled in Dafny

This project models the two sequential components at the heart of the
Hyperledger Fabric JDBC driver.

**The query translator `APIConverter`.**
- The constructor builds the alias map from the select list.
- `getFromTable` checks the table name. With no WHERE clause it scans the
  ledger from block 1 up to the height.
- A WHERE filter item becomes exactly one ledger fetch. The column is resolved
  through a case-insensitive whitelist (`blockNo`, `previousHash`,
  `transactionId`), falling back to the alias map.
- An AND/OR node must have exactly two operands. The two sides are combined
  by the hex of each block's previous hash.
- `blockToDataFrame` flattens blocks into one nine-cell row per envelope.
- `executeQuery` applies the relational operations in a fixed order.

**The cursor `FabricResultSet`.**
- It has an index that starts at -1, a closed flag and the current record.
- The operations are `next`, `close`, `isFirst` and `isLast`.
- Two column lookups: `findColumn` (ignoring case) and `getColumnIndex`
  (aliases first).
- Typed getters that read the current record.

How the model is built:
- Every operation is a pure function or a short method over immutable
  datatypes. Each has a contract.
- The ledger client is a `Channel` value whose fields are the four queries
  the driver issues. Every property therefore holds for every ledger.
- The DataFrame operations (`group`, `having`, `select`, `order`, `limit`)
  belong to a library class that is not part of this model. A query's frame
  is a term naming those operations. The model proves the order in which
  they are applied and the arguments they receive.

Modules: `Wrappers` (Option/Result), `Errors`, `Text` (ASCII case folding,
quote removal), `Decimal` (Java's `parseLong`/`parseInt`/... and
`toString`), `Hex` (commons-codec hex), `Ledger`, `Frames`, `Plan` (the
parsed query), `Combine` (AND/OR), `Translator`, `Flatten`, `Pipeline`,
`ResultSet`, `EndToEnd`.

Behaviours of the code a reader may not expect, which the model follows as written:
- Quote stripping removes every apostrophe, not only surrounding ones.
- A `blockNo` literal is parsed as written, quotes included, so `'5'` is a
  number-format error.
- The comparator of a filter item is ignored: every comparison acts as `=`
  (the TODO at fabric-jdbc-driver/src/main/java/com/impetus/fabric/parser/APIConverter.java:208 says so).
- HAVING is ignored when there is no GROUP BY.
- `next` and the getters do not consult the closed flag, although the JDBC
  `ResultSet` contract has them throw an SQLException on a closed result set.
- A `previousHash = h` filter fetches the block whose own hash is `h`
  (queryBlockByHash). The AND/OR combination, however, keys blocks by their
  previous hash.

## Model

| member | source | states |
|---|---|---|
| Text.StripQuotes | fabric-jdbc-driver/src/main/java/com/impetus/fabric/parser/APIConverter.java:221-227 | the result contains no apostrophe and only characters of the input, and is no longer than the input; text without apostrophes is unchanged |
| Text.StripQuotesAppend | fabric-jdbc-driver/src/main/java/com/impetus/fabric/parser/APIConverter.java:227 | removing apostrophes distributes over concatenation |
| Text.StripSurroundingQuotes | fabric-jdbc-driver/src/main/java/com/impetus/fabric/parser/APIConverter.java:227 | a quoted literal `'s'` with no inner apostrophe gives back `s` |
| Text.StripQuotesIdempotent | fabric-jdbc-driver/src/main/java/com/impetus/fabric/parser/APIConverter.java:227 | removing apostrophes a second time changes nothing |
| Errors.Lift | fabric-jdbc-driver/src/main/java/com/impetus/fabric/parser/APIConverter.java:158-159 | a ledger-client outcome keeps its value, and a client failure becomes the driver's exception carrying the client's message |
| Text.EqualsIgnoreCaseIsEquivalence | fabric-jdbc-driver/src/main/java/com/impetus/fabric/parser/APIConverter.java:185 | equalsIgnoreCase is reflexive, symmetric and transitive |
| Text.EqualsIgnoreCase | fabric-jdbc-driver/src/main/java/com/impetus/fabric/parser/APIConverter.java:185 | two strings match ignoring case exactly when their lower-case images are equal; equal strings always match |
| Decimal.ParseIntegral | fabric-jdbc-driver/src/main/java/com/impetus/fabric/parser/APIConverter.java:215 | the text is accepted exactly when it is a numeral (digits, optionally after one '+' or '-') whose value lies in the target range, and the result is that value |
| Decimal.Show | fabric-jdbc-driver/src/main/java/com/impetus/fabric/jdbc/FabricResultSet.java:192 | toString is non-empty and starts with '-' exactly for negative numbers; the rest is the digits of the magnitude, with no leading zero unless the text is "0" |
| Decimal.ShowNatUnique | fabric-jdbc-driver/src/main/java/com/impetus/fabric/jdbc/FabricResultSet.java:225-230 | a digit string without a leading zero (other than "0") is the rendering of the number it denotes |
| Decimal.ShowIsCanonical | fabric-jdbc-driver/src/main/java/com/impetus/fabric/jdbc/FabricResultSet.java:225-230 | the text getString returns for a number is its one canonical numeral: any numeral without '+', a leading zero or "-0" that denotes n is toString(n) |
| Decimal.ShowIsNumeral | fabric-jdbc-driver/src/main/java/com/impetus/fabric/jdbc/FabricResultSet.java:192 | toString of every integer is a numeral denoting that integer |
| Decimal.LeadingZeroValue | fabric-jdbc-driver/src/main/java/com/impetus/fabric/jdbc/FabricResultSet.java:181 | a leading zero keeps a digit string a digit string and does not change its value |
| Decimal.ParseLeadingZero | fabric-jdbc-driver/src/main/java/com/impetus/fabric/jdbc/FabricResultSet.java:181 | zero padding is accepted: "0" + digits parses as the digits do |
| Decimal.ParsePlusSign | fabric-jdbc-driver/src/main/java/com/impetus/fabric/jdbc/FabricResultSet.java:181 | an explicit '+' before an in-range non-negative rendering is accepted with the same value |
| Decimal.ParseNegativeZero | fabric-jdbc-driver/src/main/java/com/impetus/fabric/jdbc/FabricResultSet.java:181 | "-0" parses as 0 |
| Decimal.ParseRejectsBareSign | fabric-jdbc-driver/src/main/java/com/impetus/fabric/jdbc/FabricResultSet.java:181 | the empty text and a sign alone are number-format errors |
| Decimal.DigitsValueOfShowNat | fabric-jdbc-driver/src/main/java/com/impetus/fabric/jdbc/FabricResultSet.java:192 | the digits of toString evaluate back to the number |
| Decimal.ParseShow | fabric-jdbc-driver/src/main/java/com/impetus/fabric/jdbc/FabricResultSet.java:181 | parsing toString of an in-range value returns that value |
| Decimal.ParseShowOutOfRange | fabric-jdbc-driver/src/main/java/com/impetus/fabric/jdbc/FabricResultSet.java:110 | parsing toString of an out-of-range value is a number-format error |
| Hex.Decode | fabric-jdbc-driver/src/main/java/com/impetus/fabric/parser/APIConverter.java:221 | decoding succeeds exactly when the text has even length and every character is a hexadecimal digit of either case; byte k is 16 times the digit at 2k plus the digit at 2k+1, so there are two characters per byte |
| Hex.Encode | fabric-jdbc-driver/src/main/java/com/impetus/fabric/parser/APIConverter.java:283-285 | two lower-case characters per byte, the high nibble's digit first |
| Hex.DecodeEncode | fabric-jdbc-driver/src/main/java/com/impetus/fabric/parser/APIConverter.java:283 | decoding the hex of a byte string returns the byte string |
| Hex.EncodeDecode | fabric-jdbc-driver/src/main/java/com/impetus/fabric/parser/APIConverter.java:221 | re-encoding decoded hex gives its lower-case form |
| Hex.EncodeInjective | fabric-jdbc-driver/src/main/java/com/impetus/fabric/parser/APIConverter.java:256 | different previous hashes give different keys |
| Combine.KeyMap | fabric-jdbc-driver/src/main/java/com/impetus/fabric/parser/APIConverter.java:254-260 | the map's keys are the hex previous hashes of the list, and each maps to a block of the list with that key |
| Combine.KeyMapKeepsLast | fabric-jdbc-driver/src/main/java/com/impetus/fabric/parser/APIConverter.java:258-260 | a key maps to the last block of the list that has it |
| Combine.DistinctKeys | fabric-jdbc-driver/src/main/java/com/impetus/fabric/parser/APIConverter.java:262 | the key set of the map, visited once per key |
| Combine.And | fabric-jdbc-driver/src/main/java/com/impetus/fabric/parser/APIConverter.java:261-266 | each result block is the second side's block for a key present on both sides; every common key appears once; the result's keys are the intersection, so its length is at most either side's distinct keys |
| Combine.Missing | fabric-jdbc-driver/src/main/java/com/impetus/fabric/parser/APIConverter.java:269-273 | once each, the second side's block for every key the first side lacks, and nothing else |
| Combine.Or | fabric-jdbc-driver/src/main/java/com/impetus/fabric/parser/APIConverter.java:267-274 | the first list is an unchanged prefix; after it, each second-side key missing from the first side appears exactly once with the second side's block |
| Combine.OrKeys | fabric-jdbc-driver/src/main/java/com/impetus/fabric/parser/APIConverter.java:267-274 | the keys of the OR are the union of the keys of both sides |
| Combine.OrKeyCount | fabric-jdbc-driver/src/main/java/com/impetus/fabric/parser/APIConverter.java:267-274 | the OR's distinct keys number the sum of both sides' minus the shared ones |
| Combine.OrKeepsDistinct | fabric-jdbc-driver/src/main/java/com/impetus/fabric/parser/APIConverter.java:267-274 | OR of a first side without repeated keys has no repeated keys |
| Combine.AndOfDisjointIsEmpty | fabric-jdbc-driver/src/main/java/com/impetus/fabric/parser/APIConverter.java:261-266 | sides sharing no key give an empty AND |
| Translator.AnyMatch | fabric-jdbc-driver/src/main/java/com/impetus/fabric/parser/APIConverter.java:184-190 | the search loop succeeds exactly when some listed column equals the name ignoring case |
| Translator.WhitelistSearch | fabric-jdbc-driver/src/main/java/com/impetus/fabric/parser/APIConverter.java:63 | searching the three filterable columns is the filterability test |
| Translator.ResolveFilterColumn | fabric-jdbc-driver/src/main/java/com/impetus/fabric/parser/APIConverter.java:180-207 | a directly whitelisted column wins as written; otherwise it succeeds exactly when the alias's target is whitelisted, giving that target; otherwise "not filterable"; no column gives the empty name |
| Translator.PlanFetch | fabric-jdbc-driver/src/main/java/com/impetus/fabric/parser/APIConverter.java:213-231 | blockNo parses the raw literal as a long or fails; previousHash decodes the unquoted literal as hex or fails, and the hash re-encodes to the literal's lower-case form; anything else is a transaction-id fetch with no apostrophe left |
| Translator.Issue | fabric-jdbc-driver/src/main/java/com/impetus/fabric/parser/APIConverter.java:215-227 | each fetch asks the matching channel query (by number, by hash, by transaction id) and succeeds exactly when it does, with its block; a failed query fails as a ledger error carrying the client's message |
| Translator.ExecuteSingle | fabric-jdbc-driver/src/main/java/com/impetus/fabric/parser/APIConverter.java:179-234 | an unresolvable column or an unparsable literal fails with that error before any fetch; once the fetch is planned, the leaf succeeds exactly when the ledger answers it, with that one block, and otherwise fails with the ledger's error |
| Translator.FilterByBlockNumber | fabric-jdbc-driver/src/main/java/com/impetus/fabric/parser/APIConverter.java:213-215 | a directly named blockNo filter whose literal parses as n returns the ledger's block n |
| Translator.FilterByMalformedBlockNumber | fabric-jdbc-driver/src/main/java/com/impetus/fabric/parser/APIConverter.java:214-217 | a blockNo literal that is not a long is a number-format error |
| Translator.FilterThroughAlias | fabric-jdbc-driver/src/main/java/com/impetus/fabric/parser/APIConverter.java:191-199 | filtering by an alias of a whitelisted column behaves exactly as filtering by the column |
| Translator.ComparatorIgnored | fabric-jdbc-driver/src/main/java/com/impetus/fabric/parser/APIConverter.java:208-210 | changing the comparator never changes the outcome |
| Translator.FilterWithoutColumn | fabric-jdbc-driver/src/main/java/com/impetus/fabric/parser/APIConverter.java:204-207 | an item without a column fetches by the unquoted literal as a transaction id |
| Translator.ExecuteWhere | fabric-jdbc-driver/src/main/java/com/impetus/fabric/parser/APIConverter.java:236-252 | a logical node without exactly two operands is "should have two boolean expressions"; a successful leaf yields one block; every successful result, leaf, AND or OR, has pairwise distinct keys |
| Translator.ExecuteWhereKeys | fabric-jdbc-driver/src/main/java/com/impetus/fabric/parser/APIConverter.java:236-274 | evaluating the WHERE tree agrees with its set-algebra reading (leaf = its block's key, AND = intersection, OR = union): same error or same key set |
| Translator.AndOfUnrelatedItemsIsEmpty | fabric-jdbc-driver/src/main/java/com/impetus/fabric/parser/APIConverter.java:261-266 | AND of two items whose blocks have different previous hashes is empty |
| Translator.Scan | fabric-jdbc-driver/src/main/java/com/impetus/fabric/parser/APIConverter.java:155-159 | succeeds exactly when every fetch in range succeeds, returns blocks from..height-1 in ascending order, and otherwise fails with the first failing fetch's error |
| Translator.FullScan | fabric-jdbc-driver/src/main/java/com/impetus/fabric/parser/APIConverter.java:151-160 | a failing height query fails the scan; with a height, the scan succeeds exactly when every block 1..height-1 can be fetched, returns them in order (empty when height is at most 1), and otherwise fails with the first failing fetch's error |
| Translator.ScanIgnoresLowerBlocks | fabric-jdbc-driver/src/main/java/com/impetus/fabric/parser/APIConverter.java:155-157 | the scan never reads below its starting number |
| Translator.FullScanSkipsGenesis | fabric-jdbc-driver/src/main/java/com/impetus/fabric/parser/APIConverter.java:155 | ledgers differing only in block 0 give the same full scan |
| Translator.GetFromTable | fabric-jdbc-driver/src/main/java/com/impetus/fabric/parser/APIConverter.java:142-166 | a table other than `block` (ignoring case) is "Unidentified table"; otherwise the WHERE tree or the full scan |
| Translator.UnknownTableFetchesNothing | fabric-jdbc-driver/src/main/java/com/impetus/fabric/parser/APIConverter.java:162-164 | a rejected table gives the same outcome on every ledger, so no fetch is issued |
| Flatten.Record | fabric-jdbc-driver/src/main/java/com/impetus/fabric/parser/APIConverter.java:290-299 | a record has one cell per column |
| Flatten.ColumnsDistinct | fabric-jdbc-driver/src/main/java/com/impetus/fabric/parser/APIConverter.java:279-280 | the nine column names are pairwise distinct |
| Flatten.ColumnLayout | fabric-jdbc-driver/src/main/java/com/impetus/fabric/parser/APIConverter.java:279-280 | the fixed column order, name by name |
| Flatten.ColumnLookup | fabric-jdbc-driver/src/main/java/com/impetus/fabric/parser/APIConverter.java:279-280 | looking up a column by name finds its own position |
| Flatten.RecordCells | fabric-jdbc-driver/src/main/java/com/impetus/fabric/parser/APIConverter.java:283-299 | each cell carries its block's or its envelope's value, in column order |
| Flatten.RecordRecoversHashes | fabric-jdbc-driver/src/main/java/com/impetus/fabric/parser/APIConverter.java:283-285 | the three hash cells decode back to the block's byte strings |
| Flatten.EnvelopeRows | fabric-jdbc-driver/src/main/java/com/impetus/fabric/parser/APIConverter.java:289-301 | one row per envelope, in envelope order |
| Flatten.Rows | fabric-jdbc-driver/src/main/java/com/impetus/fabric/parser/APIConverter.java:282-302 | the row count is the total number of envelopes, and every row has nine cells |
| Flatten.OffsetBound | fabric-jdbc-driver/src/main/java/com/impetus/fabric/parser/APIConverter.java:282-302 | a block's rows start where the previous blocks' rows end and fit inside the table |
| Flatten.RowsLayout | fabric-jdbc-driver/src/main/java/com/impetus/fabric/parser/APIConverter.java:282-302 | row Offset(i)+j is the record of envelope j of block i, so block order and envelope order are kept |
| Flatten.RowsFromBlocks | fabric-jdbc-driver/src/main/java/com/impetus/fabric/parser/APIConverter.java:282-302 | every row is the record of some envelope of some input block |
| Flatten.RowBlockNumber | fabric-jdbc-driver/src/main/java/com/impetus/fabric/parser/APIConverter.java:295 | every row's blockNo cell is the number of an input block |
| Flatten.AscendingBlocksGiveAscendingRows | fabric-jdbc-driver/src/main/java/com/impetus/fabric/parser/APIConverter.java:282-302 | blocks in ascending number give a non-decreasing blockNo column |
| Flatten.EmptyBlockAddsNoRows | fabric-jdbc-driver/src/main/java/com/impetus/fabric/parser/APIConverter.java:289 | a block without envelopes contributes no row |
| Flatten.BlockToDataFrame | fabric-jdbc-driver/src/main/java/com/impetus/fabric/parser/APIConverter.java:278-304 | the nested loops build exactly the reference table with the fixed columns and the converter's alias map |
| Frames.CellText | fabric-jdbc-driver/src/main/java/com/impetus/fabric/jdbc/FabricResultSet.java:99-229 | a cell's toString: a string cell is its own text, an integer or long cell is its decimal rendering (a numeral denoting its value), a boolean cell is "true" or "false" as it is true or false, and a timestamp cell is its rendering |
| Frames.ColumnPosition | fabric-jdbc-driver/src/main/java/com/impetus/fabric/jdbc/FabricResultSet.java:295 | a found position holds the name with no earlier occurrence; none exactly when the name is absent |
| Frames.PositionOfDistinct | fabric-jdbc-driver/src/main/java/com/impetus/fabric/jdbc/FabricResultSet.java:298 | with distinct names, the k-th name is found at k |
| Pipeline.AliasMapContents | fabric-jdbc-driver/src/main/java/com/impetus/fabric/parser/APIConverter.java:72-83 | the map is built exactly when no alias repeats; it then maps the alias of each item with both an identifier and a column, and only those, to that column |
| Pipeline.AliasMapFailure | fabric-jdbc-driver/src/main/java/com/impetus/fabric/parser/APIConverter.java:77-78 | a failure is "ambiguous" and names the alias of the first item whose alias was already taken |
| Pipeline.BuildAliasMap | fabric-jdbc-driver/src/main/java/com/impetus/fabric/parser/APIConverter.java:72-83 | the constructor loop fails only with an ambiguous-alias error (its full contract is AliasMapContents and AliasMapFailure) |
| Pipeline.UnnamedItemsAddNothing | fabric-jdbc-driver/src/main/java/com/impetus/fabric/parser/APIConverter.java:74 | an item lacking the identifier or the column leaves the map unchanged |
| Pipeline.NewConverter | fabric-jdbc-driver/src/main/java/com/impetus/fabric/parser/APIConverter.java:67-84 | construction succeeds exactly when aliases are distinct, keeps the query and select items, maps exactly the aliases, each to its own item's column; it otherwise fails at the first repeated alias |
| Pipeline.Compose | fabric-jdbc-driver/src/main/java/com/impetus/fabric/parser/APIConverter.java:103-139 | starts from the flattened frame; grouped path = group, having if present, select, order if present, limit if present; ungrouped path = order if present, limit if present, select; the group receives the GROUP BY columns, having the HAVING clause (grouped path only), select the select items, order the order items and limit the LIMIT clause |
| Pipeline.SelectLastWithoutGrouping | fabric-jdbc-driver/src/main/java/com/impetus/fabric/parser/APIConverter.java:127-139 | without GROUP BY the outermost operation is the select of the query's items, and no select happens before it |
| Pipeline.HavingIgnoredWithoutGroupBy | fabric-jdbc-driver/src/main/java/com/impetus/fabric/parser/APIConverter.java:103-139 | without GROUP BY the HAVING clause has no effect |
| Pipeline.OrderBeforeLimit | fabric-jdbc-driver/src/main/java/com/impetus/fabric/parser/APIConverter.java:115-138 | on both paths the order comes before the limit |
| Pipeline.GroupedHead | fabric-jdbc-driver/src/main/java/com/impetus/fabric/parser/APIConverter.java:103-114 | with GROUP BY the group is first, HAVING (when present) second, then the select |
| Pipeline.GroupedTail | fabric-jdbc-driver/src/main/java/com/impetus/fabric/parser/APIConverter.java:115-125 | with GROUP BY order and limit come after the select, order before limit |
| Pipeline.UngroupedOrder | fabric-jdbc-driver/src/main/java/com/impetus/fabric/parser/APIConverter.java:127-139 | without GROUP BY there is no group or having, order comes first when present, and the select is last |
| Pipeline.ExecuteQuery | fabric-jdbc-driver/src/main/java/com/impetus/fabric/parser/APIConverter.java:86-93 | fails exactly when the fetch fails, with its error; otherwise the operations start from the flattened frame of the fetched blocks with the alias map |
| Pipeline.FullScanRowsAscending | fabric-jdbc-driver/src/main/java/com/impetus/fabric/parser/APIConverter.java:155-157 | on a ledger that answers block numbers honestly, the full scan flattens into rows of non-decreasing block number, none from block 0 |
| ResultSet.Open | fabric-jdbc-driver/src/main/java/com/impetus/fabric/jdbc/FabricResultSet.java:51-57 | a fresh cursor is before the first row, open, with no record, and satisfies the record invariant |
| ResultSet.Close | fabric-jdbc-driver/src/main/java/com/impetus/fabric/jdbc/FabricResultSet.java:59-65 | closes and drops the statement on first call; index, frame, record and table are unchanged; the invariant is kept |
| ResultSet.CloseIdempotent | fabric-jdbc-driver/src/main/java/com/impetus/fabric/jdbc/FabricResultSet.java:60 | closing twice is closing once |
| ResultSet.Next | fabric-jdbc-driver/src/main/java/com/impetus/fabric/jdbc/FabricResultSet.java:278-284 | the index always moves up by one; the answer is true exactly when the new index is inside the frame, and then the record is that row; on false the record stays; the frame, the table, the closed flag and the statement are unchanged; the invariant is kept |
| ResultSet.NextIgnoresClosed | fabric-jdbc-driver/src/main/java/com/impetus/fabric/jdbc/FabricResultSet.java:278-284 | next on a closed cursor answers and moves as on an open one |
| ResultSet.RunMoves | fabric-jdbc-driver/src/main/java/com/impetus/fabric/jdbc/FabricResultSet.java:279 | k calls move the index by k and keep the frame, the flag and the invariant |
| ResultSet.ExhaustedStaysExhausted | fabric-jdbc-driver/src/main/java/com/impetus/fabric/jdbc/FabricResultSet.java:279-280 | once next answers false, every later call answers false |
| ResultSet.WalkVisitsRows | fabric-jdbc-driver/src/main/java/com/impetus/fabric/jdbc/FabricResultSet.java:278-284 | from a fresh cursor, call k+1 answers true exactly when there are more than k rows, and then the record is row k |
| ResultSet.FirstAndLast | fabric-jdbc-driver/src/main/java/com/impetus/fabric/jdbc/FabricResultSet.java:270-276 | after k calls the cursor is first exactly when k is 1 and last exactly when k is the row count, so an empty result is last before any call |
| ResultSet.IsFirst | fabric-jdbc-driver/src/main/java/com/impetus/fabric/jdbc/FabricResultSet.java:270-272 | when first, the current record is row 0, and the index is where one call of next from a fresh cursor leaves it |
| ResultSet.IsLast | fabric-jdbc-driver/src/main/java/com/impetus/fabric/jdbc/FabricResultSet.java:274-276 | within the frame, the cursor is last exactly when the next call answers false, and then the current record is the last row |
| ResultSet.FirstMatch | fabric-jdbc-driver/src/main/java/com/impetus/fabric/jdbc/FabricResultSet.java:68-72 | the first column equal to the name ignoring case, or none when none is |
| ResultSet.FindColumn | fabric-jdbc-driver/src/main/java/com/impetus/fabric/jdbc/FabricResultSet.java:67-74 | returns 1 plus the index of the first column equal ignoring case, in 1..column count, or fails with the column's name exactly when none matches |
| ResultSet.ColumnIndex | fabric-jdbc-driver/src/main/java/com/impetus/fabric/jdbc/FabricResultSet.java:291-300 | an alias resolves to its column's 1-based position, failing when that column is absent; any other label resolves to its own position, or the "doesn't contain column" error |
| ResultSet.AliasResolvesToColumn | fabric-jdbc-driver/src/main/java/com/impetus/fabric/jdbc/FabricResultSet.java:292-293 | an alias gives the same index as the column it names |
| ResultSet.ColumnIndexMatchesFindColumn | fabric-jdbc-driver/src/main/java/com/impetus/fabric/jdbc/FabricResultSet.java:291-300 | with names distinct ignoring case and no alias in the way, both lookups find every column at its own position |
| ResultSet.CellAt | fabric-jdbc-driver/src/main/java/com/impetus/fabric/jdbc/FabricResultSet.java:199-204 | the cell is read exactly for 1 <= index <= record length; no record, an index past the length and an index below 1 each have their error |
| ResultSet.GetIntegral | fabric-jdbc-driver/src/main/java/com/impetus/fabric/jdbc/FabricResultSet.java:177-182 | a value is in range; an index error passes through; a null cell is 0; a present cell succeeds exactly when its text is a numeral in range, with that numeral's value, and is a number-format error naming the text otherwise |
| ResultSet.GetByte | fabric-jdbc-driver/src/main/java/com/impetus/fabric/jdbc/FabricResultSet.java:106-111 | values lie in the byte range; an index error passes through; null is 0; a present cell reads as the value of its text exactly when that text is a numeral in the byte range, and is a number-format error otherwise |
| ResultSet.GetShort | fabric-jdbc-driver/src/main/java/com/impetus/fabric/jdbc/FabricResultSet.java:210-215 | values lie in the short range; an index error passes through; null is 0; a present cell reads as the value of its text exactly when that text is a numeral in the short range, and is a number-format error otherwise |
| ResultSet.GetInt | fabric-jdbc-driver/src/main/java/com/impetus/fabric/jdbc/FabricResultSet.java:177-182 | values lie in the int range; an index error passes through; null is 0; a present cell reads as the value of its text exactly when that text is a numeral in the int range, and is a number-format error otherwise |
| ResultSet.GetLong | fabric-jdbc-driver/src/main/java/com/impetus/fabric/jdbc/FabricResultSet.java:188-193 | values lie in the long range; an index error passes through; null is 0; a present cell reads as the value of its text exactly when that text is a numeral in the long range, and is a number-format error otherwise |
| ResultSet.IntegralRoundTrip | fabric-jdbc-driver/src/main/java/com/impetus/fabric/jdbc/FabricResultSet.java:181 | a numeric cell, or its decimal text, reads back as its value when it fits the range, and is a number-format error when it does not |
| ResultSet.GetBoolean | fabric-jdbc-driver/src/main/java/com/impetus/fabric/jdbc/FabricResultSet.java:95-100 | never fails on a present cell; the answer is true exactly when the cell is non-null and its text is "true" ignoring case |
| ResultSet.BooleanRoundTrip | fabric-jdbc-driver/src/main/java/com/impetus/fabric/jdbc/FabricResultSet.java:99 | a boolean cell reads back as itself and a numeric cell reads as false |
| ResultSet.ShowIsNotTrue | fabric-jdbc-driver/src/main/java/com/impetus/fabric/jdbc/FabricResultSet.java:99 | no decimal rendering reads as "true" |
| ResultSet.GetString | fabric-jdbc-driver/src/main/java/com/impetus/fabric/jdbc/FabricResultSet.java:225-230 | null exactly for a null cell, otherwise the cell's text |
| ResultSet.StringRoundTrip | fabric-jdbc-driver/src/main/java/com/impetus/fabric/jdbc/FabricResultSet.java:229 | a string cell reads as itself; a long cell reads as its decimal text, which getLong parses back |
| ResultSet.GetObject | fabric-jdbc-driver/src/main/java/com/impetus/fabric/jdbc/FabricResultSet.java:199-204 | the cell itself, for exactly the valid indexes |
| ResultSet.ByLabel | fabric-jdbc-driver/src/main/java/com/impetus/fabric/jdbc/FabricResultSet.java:195-196 | the label is resolved first, and its error wins; otherwise the getter runs on the resolved index |
| ResultSet.GetLongByLabel | fabric-jdbc-driver/src/main/java/com/impetus/fabric/jdbc/FabricResultSet.java:195-196 | getLong(String) resolves the label with getColumnIndex, failing with its error, and otherwise reads getLong at the resolved index |
| ResultSet.GetIntByLabel | fabric-jdbc-driver/src/main/java/com/impetus/fabric/jdbc/FabricResultSet.java:184-185 | getInt(String) resolves the label with getColumnIndex, failing with its error, and otherwise reads getInt at the resolved index |
| ResultSet.GetShortByLabel | fabric-jdbc-driver/src/main/java/com/impetus/fabric/jdbc/FabricResultSet.java:217-218 | getShort(String) resolves the label with getColumnIndex, failing with its error, and otherwise reads getShort at the resolved index |
| ResultSet.GetByteByLabel | fabric-jdbc-driver/src/main/java/com/impetus/fabric/jdbc/FabricResultSet.java:113-114 | getByte(String) resolves the label with getColumnIndex, failing with its error, and otherwise reads getByte at the resolved index |
| ResultSet.GetBooleanByLabel | fabric-jdbc-driver/src/main/java/com/impetus/fabric/jdbc/FabricResultSet.java:102-103 | getBoolean(String) resolves the label with getColumnIndex, failing with its error, and otherwise reads getBoolean at the resolved index |
| ResultSet.GetStringByLabel | fabric-jdbc-driver/src/main/java/com/impetus/fabric/jdbc/FabricResultSet.java:232-233 | getString(String) resolves the label with getColumnIndex, failing with its error, and otherwise reads getString at the resolved index |
| ResultSet.GetObjectByLabel | fabric-jdbc-driver/src/main/java/com/impetus/fabric/jdbc/FabricResultSet.java:206-207 | getObject(String) resolves the label with getColumnIndex, failing with its error, and otherwise reads getObject at the resolved index |
| ResultSet.ReadThroughAlias | fabric-jdbc-driver/src/main/java/com/impetus/fabric/jdbc/FabricResultSet.java:292-293 | reading through an alias reads the aliased column's cell |
| ResultSet.ReadByName | fabric-jdbc-driver/src/main/java/com/impetus/fabric/jdbc/FabricResultSet.java:295-298 | reading by a plain column name reads the cell at that column's position |
| EndToEnd.AfterIsRow | fabric-jdbc-driver/src/main/java/com/impetus/fabric/jdbc/FabricResultSet.java:278-284 | after k+1 calls of next the record is row k |
| EndToEnd.WalkReachesRecord | fabric-jdbc-driver/src/main/java/com/impetus/fabric/parser/APIConverter.java:289-300 | walking the flattened table reaches envelope j of block i at row Offset(i)+j |
| EndToEnd.KeyColumnsFound | fabric-jdbc-driver/src/main/java/com/impetus/fabric/parser/APIConverter.java:279-280 | blockNo, transactionId and previousHash are found by name at their cells |
| EndToEnd.CursorReadsBlock | fabric-jdbc-driver/src/main/java/com/impetus/fabric/jdbc/FabricResultSet.java:195-196 | on a flattened row, getLong("blockNo"), getString("transactionId") and getString("previousHash") return the block number, the envelope id and hex that decodes to the previous hash |

## Left out

- Ledger network calls (`queryBlockchainInfo`, `queryBlockByNumber`, `queryBlockByHash`, `queryBlockByTransactionID`) are function-typed fields of `Channel`. Their failures are one error carrying the client's message.
- The parser that builds the logical plan is not part of this model. `Plan.Query` holds only the parts the core reads.
- DataFrame and GroupedDataFrame internals (`group`, `having`, `select`, `order`, `limit`) belong to a library class outside the model. They stay symbolic terms.
- Frames.ColumnPosition: DataFrame's column-name map is outside the model. It is taken to answer the first position of a name, which only matters when a frame repeats a column name.
- HashMap iteration order in the AND/OR loops is replaced by first-occurrence order of keys. Every property is stated independently of that order.
- ResultSet.Next: does not model the 32-bit wrap-around of `recIdx` after 2^31 calls; the index is an unbounded integer.
- Text.EqualsIgnoreCase: case folding covers ASCII letters only, not Unicode case mapping.
- Decimal.ParseIntegral: accepts ASCII digits only, not the other Unicode digits Java's parsers accept.
- Hex.Decode: accepts ASCII hexadecimal digits only; Character.digit(c, 16), which commons-codec uses, also accepts other Unicode digits and fullwidth letters.
- The Integer/Long boxing of cells is kept only as the `Int`/`Long` tag. Both render and parse the same way.
- InvalidProtocolBufferException from envelope decoding is not modelled. An envelope's id, type and timestamp are plain values.
- Float, double and BigDecimal getters are left out (floating point). So are `getDate` (locale-dependent parsing), `getTimestamp` (a cast), `getURL` and `getArray`.
- Metadata and the statement-delegating getters (`getConcurrency`, `getHoldability`, `getType`, `getStatement`, `getMetaData`) are left out. They only forward to other objects.
- The demo application and the JDBC statement class are not part of this model.
- Concurrency: the core is sequential and so is the model.

=== FILE: combine.dfy ===
/** The set algebra that joins the two operands of a compound WHERE node.
    Each side's blocks are put into a map keyed on the hexadecimal text of
    the block's previous hash (a later block with the same key replaces an
    earlier one). The map's iteration order is left to the hash table in the
    driver; here keys are visited in the order they first occur in the list,
    and every property is stated so that it holds for any visiting order. */
module Combine {

  import opened Hex
  import opened Ledger

  /** Hex.encodeHexString(block.getPreviousHash()). */
  function Key(b: BlockInfo): string {
    Encode(b.previousHash)
  }

  function KeySet(bs: seq<BlockInfo>): set<string> {
    set b | b in bs :: Key(b)
  }

  predicate DistinctStrings(ks: seq<string>) {
    forall i, j :: 0 <= i < j < |ks| ==> ks[i] != ks[j]
  }

  predicate KeysDistinct(bs: seq<BlockInfo>) {
    forall i, j :: 0 <= i < j < |bs| ==> Key(bs[i]) != Key(bs[j])
  }

  lemma KeySetSnoc(bs: seq<BlockInfo>, b: BlockInfo)
    ensures KeySet(bs + [b]) == KeySet(bs) + {Key(b)}
  {
    assert forall x :: x in bs + [b] <==> x in bs || x == b;
  }

  /** The map the driver builds by putting every block of the list in turn. */
  function KeyMap(bs: seq<BlockInfo>): (m: map<string, BlockInfo>)
    ensures m.Keys == KeySet(bs)
    ensures forall k :: k in m ==> m[k] in bs && Key(m[k]) == k
    decreases |bs|
  {
    if |bs| == 0 then map[]
    else
      var init := bs[..|bs| - 1];
      var last := bs[|bs| - 1];
      assert bs == init + [last];
      KeySetSnoc(init, last);
      KeyMap(init)[Key(last) := last]
  }

  /** The map holds, for each key, the last block of the list with that key. */
  lemma {:induction false} KeyMapKeepsLast(bs: seq<BlockInfo>, i: nat)
    requires i < |bs|
    requires forall j :: i < j < |bs| ==> Key(bs[j]) != Key(bs[i])
    ensures KeyMap(bs)[Key(bs[i])] == bs[i]
    decreases |bs|
  {
    var init := bs[..|bs| - 1];
    if i < |bs| - 1 {
      KeyMapKeepsLast(init, i);
    }
  }

  /** The keys of a list, each once, in order of first occurrence. */
  function DistinctKeys(bs: seq<BlockInfo>): (ks: seq<string>)
    ensures DistinctStrings(ks)
    ensures (set k | k in ks) == KeySet(bs)
    decreases |bs|
  {
    if |bs| == 0 then []
    else
      var init := bs[..|bs| - 1];
      var last := bs[|bs| - 1];
      assert bs == init + [last];
      KeySetSnoc(init, last);
      var ks := DistinctKeys(init);
      if Key(last) in ks then ks else ks + [Key(last)]
  }

  /** The map's values for those of the visited keys that are allowed, in visiting order. */
  function Gather(ks: seq<string>, m: map<string, BlockInfo>, allowed: set<string>): (r: seq<BlockInfo>)
    requires forall k :: k in m ==> Key(m[k]) == k
    ensures forall b :: b in r ==> Key(b) in ks && Key(b) in m && Key(b) in allowed && b == m[Key(b)]
    ensures |r| <= |ks|
    decreases |ks|
  {
    if |ks| == 0 then []
    else if ks[0] in m && ks[0] in allowed then [m[ks[0]]] + Gather(ks[1..], m, allowed)
    else Gather(ks[1..], m, allowed)
  }

  /** Every allowed key the map holds contributes its block. */
  lemma {:induction false} GatherCovers(ks: seq<string>, m: map<string, BlockInfo>, allowed: set<string>, k: string)
    requires forall k :: k in m ==> Key(m[k]) == k
    requires k in ks && k in m && k in allowed
    ensures m[k] in Gather(ks, m, allowed)
    decreases |ks|
  {
    if ks[0] != k {
      GatherCovers(ks[1..], m, allowed, k);
    }
  }

  /** Visiting each key once yields each key once. */
  lemma {:induction false} GatherDistinct(ks: seq<string>, m: map<string, BlockInfo>, allowed: set<string>)
    requires forall k :: k in m ==> Key(m[k]) == k
    requires DistinctStrings(ks)
    ensures KeysDistinct(Gather(ks, m, allowed))
    decreases |ks|
  {
    if |ks| > 0 {
      GatherDistinct(ks[1..], m, allowed);
      assert ks[0] !in ks[1..];
    }
  }

  /** The keys gathered are exactly the allowed keys of the map that were visited. */
  lemma GatherKeys(ks: seq<string>, m: map<string, BlockInfo>, allowed: set<string>)
    requires forall k :: k in m ==> Key(m[k]) == k
    ensures KeySet(Gather(ks, m, allowed)) == (set k | k in ks) * m.Keys * allowed
  {
    var r := Gather(ks, m, allowed);
    forall k | k in (set k | k in ks) * m.Keys * allowed
      ensures k in KeySet(r)
    {
      GatherCovers(ks, m, allowed, k);
    }
  }

  /** A list whose keys are pairwise distinct has as many keys as elements. */
  lemma {:induction false} KeysDistinctCard(bs: seq<BlockInfo>)
    requires KeysDistinct(bs)
    ensures |KeySet(bs)| == |bs|
    decreases |bs|
  {
    if |bs| > 0 {
      var init := bs[..|bs| - 1];
      var last := bs[|bs| - 1];
      assert bs == init + [last];
      KeySetSnoc(init, last);
      KeysDistinctCard(init);
      assert Key(last) !in KeySet(init);
    }
  }

  lemma {:induction false} SubsetCard(a: set<string>, b: set<string>)
    requires a <= b
    ensures |a| <= |b|
    decreases |a|
  {
    if a != {} {
      var x :| x in a;
      SubsetCard(a - {x}, b - {x});
    }
  }

  /** AND: for every key present on both sides, once, the second side's block
      for that key (the last one put). */
  function And(first: seq<BlockInfo>, second: seq<BlockInfo>): (r: seq<BlockInfo>)
    ensures forall b :: b in r ==> Key(b) in KeySet(first) && Key(b) in KeySet(second)
    ensures forall b :: b in r ==> b == KeyMap(second)[Key(b)]
    ensures forall k :: k in KeySet(first) && k in KeySet(second) ==> KeyMap(second)[k] in r
    ensures KeysDistinct(r)
    ensures KeySet(r) == KeySet(first) * KeySet(second)
    ensures |r| == |KeySet(first) * KeySet(second)|
    ensures |r| <= |KeyMap(first)| && |r| <= |KeyMap(second)|
  {
    var m2 := KeyMap(second);
    var ks := DistinctKeys(first);
    var r := Gather(ks, m2, m2.Keys);
    GatherKeys(ks, m2, m2.Keys);
    GatherDistinct(ks, m2, m2.Keys);
    assert KeySet(r) == KeySet(first) * KeySet(second);
    forall k | k in KeySet(first) && k in KeySet(second)
      ensures m2[k] in r
    {
      assert k in (set k | k in ks);
      GatherCovers(ks, m2, m2.Keys, k);
    }
    KeysDistinctCard(r);
    SubsetCard(KeySet(first) * KeySet(second), KeySet(first));
    SubsetCard(KeySet(first) * KeySet(second), KeySet(second));
    assert |KeyMap(first)| == |KeySet(first)| by {
      assert |KeyMap(first)| == |KeyMap(first).Keys|;
    }
    assert |m2| == |KeySet(second)| by {
      assert |m2| == |m2.Keys|;
    }
    r
  }

  lemma KeySetAppend(a: seq<BlockInfo>, b: seq<BlockInfo>)
    ensures KeySet(a + b) == KeySet(a) + KeySet(b)
  {
    assert forall x :: x in a + b <==> x in a || x in b;
  }

  /** Once each, the second side's block for every key the first side lacks. */
  function Missing(first: seq<BlockInfo>, second: seq<BlockInfo>): (added: seq<BlockInfo>)
    ensures forall b :: b in added ==> Key(b) in KeySet(second) - KeySet(first)
    ensures forall b :: b in added ==> b == KeyMap(second)[Key(b)]
    ensures forall k :: k in KeySet(second) - KeySet(first) ==> KeyMap(second)[k] in added
    ensures KeysDistinct(added)
    ensures KeySet(added) == KeySet(second) - KeySet(first)
    ensures |added| == |KeySet(second) - KeySet(first)|
  {
    var m1 := KeyMap(first);
    var m2 := KeyMap(second);
    var ks := DistinctKeys(second);
    var added := Gather(ks, m2, m2.Keys - m1.Keys);
    GatherKeys(ks, m2, m2.Keys - m1.Keys);
    GatherDistinct(ks, m2, m2.Keys - m1.Keys);
    assert KeySet(added) == KeySet(second) - KeySet(first);
    forall k | k in KeySet(second) - KeySet(first)
      ensures m2[k] in added
    {
      assert k in (set k | k in ks);
      GatherCovers(ks, m2, m2.Keys - m1.Keys, k);
    }
    KeysDistinctCard(added);
    added
  }

  /** OR: the first side unchanged, then once each the second side's block for
      every key the first side lacks. */
  function Or(first: seq<BlockInfo>, second: seq<BlockInfo>): (r: seq<BlockInfo>)
    ensures |first| <= |r| && r[..|first|] == first
    ensures forall i :: |first| <= i < |r| ==>
      Key(r[i]) in KeySet(second) - KeySet(first) && r[i] == KeyMap(second)[Key(r[i])]
    ensures forall i, j :: |first| <= i < j < |r| ==> Key(r[i]) != Key(r[j])
    ensures forall k :: k in KeySet(second) - KeySet(first) ==> KeyMap(second)[k] in r
    ensures |r| == |first| + |KeySet(second) - KeySet(first)|
  {
    var added := Missing(first, second);
    first + added
  }

  /** OR of a first side without repeated keys has no repeated keys. */
  lemma OrKeepsDistinct(first: seq<BlockInfo>, second: seq<BlockInfo>)
    ensures KeysDistinct(first) ==> KeysDistinct(Or(first, second))
  {
    var r := Or(first, second);
    if KeysDistinct(first) {
      forall i, j | 0 <= i < j < |r|
        ensures Key(r[i]) != Key(r[j])
      {
        if j < |first| {
          assert r[i] == first[i] && r[j] == first[j];
        } else if i < |first| {
          assert r[i] == first[i];
          assert Key(r[i]) in KeySet(first);
        }
      }
    }
  }

  /** Every key of either side is a key of the OR. */
  lemma OrKeys(first: seq<BlockInfo>, second: seq<BlockInfo>)
    ensures KeySet(Or(first, second)) == KeySet(first) + KeySet(second)
  {
    var added := Missing(first, second);
    assert Or(first, second) == first + added;
    AppendMissingKeys(first, added, KeySet(second));
  }

  lemma AppendMissingKeys(first: seq<BlockInfo>, added: seq<BlockInfo>, other: set<string>)
    requires KeySet(added) == other - KeySet(first)
    ensures KeySet(first + added) == KeySet(first) + other
  {
    KeySetAppend(first, added);
  }

  lemma InclusionExclusion(a: set<string>, b: set<string>)
    ensures |a + b| == |a| + |b| - |a * b|
  {
  }

  /** Counted by key, OR is inclusion-exclusion: |A| + |B| - |A * B|. */
  lemma OrKeyCount(first: seq<BlockInfo>, second: seq<BlockInfo>)
    ensures |KeySet(Or(first, second))| == |KeySet(first)| + |KeySet(second)| - |KeySet(first) * KeySet(second)|
  {
    OrKeys(first, second);
    InclusionExclusion(KeySet(first), KeySet(second));
  }

  /** Two operands that share no key combine to nothing under AND. */
  lemma AndOfDisjointIsEmpty(first: seq<BlockInfo>, second: seq<BlockInfo>)
    requires KeySet(first) !! KeySet(second)
    ensures And(first, second) == []
  {
  }
}

=== FILE: decimal.dfy ===
/** Decimal text of integers: the rendering of Integer.toString/Long.toString
    and the radix-10 parsers Byte.parseByte, Short.parseShort,
    Integer.parseInt and Long.parseLong, which differ only in their range. */
module Decimal {

  import opened Wrappers

  const ByteMin := -0x80
  const ByteMax := 0x7F
  const ShortMin := -0x8000
  const ShortMax := 0x7FFF
  const IntMin := -0x8000_0000
  const IntMax := 0x7FFF_FFFF
  const LongMin := -0x8000_0000_0000_0000
  const LongMax := 0x7FFF_FFFF_FFFF_FFFF

  predicate IsDigit(c: char) {
    '0' <= c <= '9'
  }

  predicate AllDigits(s: string) {
    forall i :: 0 <= i < |s| ==> IsDigit(s[i])
  }

  /** The value of a string of decimal digits, most significant first. */
  function DigitsValue(s: string): nat
    requires AllDigits(s)
    decreases |s|
  {
    if |s| == 0 then 0 else DigitsValue(s[..|s| - 1]) * 10 + (s[|s| - 1] as int - '0' as int)
  }

  function DigitChar(d: nat): (c: char)
    requires d < 10
    ensures IsDigit(c) && c as int - '0' as int == d
  {
    ('0' as int + d) as char
  }

  /** Shortest decimal digits of a natural number. */
  function ShowNat(n: nat): (s: string)
    ensures 0 < |s| && AllDigits(s)
    ensures 0 < n ==> s[0] != '0'
    ensures n == 0 ==> s == "0"
    decreases n
  {
    if n < 10 then [DigitChar(n)] else ShowNat(n / 10) + [DigitChar(n % 10)]
  }

  /** Integer.toString and Long.toString: a '-' for negative numbers, then
      the digits of the magnitude with no leading zero. */
  function Show(n: int): (s: string)
    ensures 0 < |s| && (s[0] == '-' <==> n < 0)
    ensures 0 <= n ==> AllDigits(s)
    ensures n < 0 ==> 1 < |s| && AllDigits(s[1..])
    ensures s == "0" || s[if n < 0 then 1 else 0] != '0'
  {
    if n < 0 then "-" + ShowNat(-n) else ShowNat(n)
  }

  /** The texts the radix-10 parsers accept, whatever the range: a string of
      digits, or a '+' or '-' followed by one. */
  predicate IsNumeral(s: string) {
    (0 < |s| && AllDigits(s)) || (1 < |s| && (s[0] == '+' || s[0] == '-') && AllDigits(s[1..]))
  }

  /** The value a numeral denotes. */
  function NumeralValue(s: string): int
    requires IsNumeral(s)
  {
    var magnitude: int := if IsDigit(s[0]) then DigitsValue(s) else DigitsValue(s[1..]);
    if s[0] == '-' then -magnitude else magnitude
  }

  /** The radix-10 parser for a target type whose range is lo..hi: an optional
      '+' or '-', then at least one digit, and a value inside the range;
      anything else is a NumberFormatException (None). */
  function ParseIntegral(s: string, lo: int, hi: int): (r: Option<int>)
    ensures r.Some? ==> lo <= r.value <= hi
    ensures r.Some? ==> 0 < |s| && (IsDigit(s[0]) || s[0] == '-' || s[0] == '+')
    ensures r.Some? && 0 < r.value ==> s[0] != '-'
    ensures r.Some? <==> IsNumeral(s) && lo <= NumeralValue(s) <= hi
    ensures r.Some? ==> r.value == NumeralValue(s)
  {
    if |s| == 0 then None
    else
      var signed := s[0] == '-' || s[0] == '+';
      var digits := if signed then s[1..] else s;
      if |digits| == 0 || !AllDigits(digits) then None
      else
        var magnitude: int := DigitsValue(digits);
        var v := if s[0] == '-' then -magnitude else magnitude;
        if lo <= v <= hi then Some(v) else None
  }

  lemma {:induction false} DigitsValueOfShowNat(n: nat)
    ensures DigitsValue(ShowNat(n)) == n
    decreases n
  {
    if n >= 10 {
      var p := ShowNat(n / 10);
      var s := p + [DigitChar(n % 10)];
      assert s[..|s| - 1] == p;
      DigitsValueOfShowNat(n / 10);
    }
  }

  /** Parsing the rendering of any in-range value gives the value back. */
  lemma ParseShow(n: int, lo: int, hi: int)
    requires lo <= n <= hi
    ensures ParseIntegral(Show(n), lo, hi) == Some(n)
  {
    if n < 0 {
      var s := "-" + ShowNat(-n);
      assert s[1..] == ShowNat(-n);
      DigitsValueOfShowNat(-n);
    } else {
      DigitsValueOfShowNat(n);
    }
  }

  /** The rendering of an out-of-range value is rejected. */
  lemma ParseShowOutOfRange(n: int, lo: int, hi: int)
    requires n < lo || hi < n
    ensures ParseIntegral(Show(n), lo, hi) == None
  {
    if n < 0 {
      var s := "-" + ShowNat(-n);
      assert s[1..] == ShowNat(-n);
      DigitsValueOfShowNat(-n);
    } else {
      DigitsValueOfShowNat(n);
    }
  }

  /** The rendering of every integer is a numeral denoting it. */
  lemma ShowIsNumeral(n: int)
    ensures IsNumeral(Show(n)) && NumeralValue(Show(n)) == n
  {
    if n < 0 {
      var s := "-" + ShowNat(-n);
      assert s[1..] == ShowNat(-n);
      DigitsValueOfShowNat(-n);
    } else {
      DigitsValueOfShowNat(n);
    }
  }

  /** A leading zero does not change the value of a string of digits. */
  lemma {:induction false} LeadingZeroValue(s: string)
    requires AllDigits(s)
    ensures AllDigits("0" + s) && DigitsValue("0" + s) == DigitsValue(s)
    decreases |s|
  {
    var t := "0" + s;
    assert AllDigits(t) by {
      assert forall i :: 0 < i < |t| ==> t[i] == s[i - 1];
    }
    if |s| > 0 {
      var init := s[..|s| - 1];
      assert t[..|t| - 1] == "0" + init;
      assert t[|t| - 1] == s[|s| - 1];
      LeadingZeroValue(init);
    }
  }

  /** Zero padding is accepted: "007" parses as "7". */
  lemma ParseLeadingZero(s: string, lo: int, hi: int)
    requires 0 < |s| && AllDigits(s)
    ensures ParseIntegral("0" + s, lo, hi) == ParseIntegral(s, lo, hi)
  {
    LeadingZeroValue(s);
  }

  /** An explicit plus sign is accepted: "+5" parses as 5. */
  lemma ParsePlusSign(n: nat, lo: int, hi: int)
    requires lo <= n <= hi
    ensures ParseIntegral("+" + Show(n), lo, hi) == Some(n)
  {
    var s := "+" + Show(n);
    assert s[1..] == Show(n);
    ShowIsNumeral(n);
  }

  /** A minus sign on zero is accepted: "-0" parses as 0. */
  lemma ParseNegativeZero(lo: int, hi: int)
    requires lo <= 0 <= hi
    ensures ParseIntegral("-0", lo, hi) == Some(0)
  {
    assert "-0"[1..] == "0";
  }

  /** A sign alone, and the empty text, are rejected. */
  lemma ParseRejectsBareSign(lo: int, hi: int)
    ensures ParseIntegral("", lo, hi) == None
    ensures ParseIntegral("+", lo, hi) == None && ParseIntegral("-", lo, hi) == None
  {
  }

  /** A digit string that does not start with '0' denotes a positive number. */
  lemma {:induction false} LeadingDigitPositive(t: string)
    requires 0 < |t| && AllDigits(t) && t[0] != '0'
    ensures 0 < DigitsValue(t)
    decreases |t|
  {
    if 1 < |t| {
      LeadingDigitPositive(t[..|t| - 1]);
    }
  }

  /** The digits of a natural number are the only digit string without a
      leading zero (other than "0" itself) that denotes it. */
  lemma {:induction false} ShowNatUnique(t: string)
    requires 0 < |t| && AllDigits(t) && (t == "0" || t[0] != '0')
    ensures t == ShowNat(DigitsValue(t))
    decreases |t|
  {
    var m := DigitsValue(t);
    if |t| == 1 {
      assert m == t[0] as int - '0' as int;
    } else {
      var init := t[..|t| - 1];
      assert init[0] == t[0];
      LeadingDigitPositive(init);
      ShowNatUnique(init);
      assert m / 10 == DigitsValue(init) && m % 10 == t[|t| - 1] as int - '0' as int;
      assert t == init + [t[|t| - 1]];
    }
  }

  /** Integer.toString gives the one canonical numeral of a number: no '+',
      no leading zero, and no "-0". Any such numeral with value n is Show(n). */
  lemma ShowIsCanonical(t: string)
    requires IsNumeral(t) && t[0] != '+'
    requires IsDigit(t[0]) ==> t == "0" || t[0] != '0'
    requires t[0] == '-' ==> t[1] != '0'
    ensures t == Show(NumeralValue(t))
  {
    if t[0] == '-' {
      var u := t[1..];
      ShowNatUnique(u);
      LeadingDigitPositive(u);
      assert t == "-" + u;
    } else {
      ShowNatUnique(t);
    }
  }
}

=== FILE: endtoend.dfy ===
/** The flattened block table read through the cursor: walking a fresh
    cursor over the frame blockToDataFrame builds and reading cells by column
    name gives back the fetched blocks' values. */
module EndToEnd {

  import opened Wrappers
  import opened Decimal
  import opened Hex
  import opened Ledger
  import opened Frames
  import opened Flatten
  import opened ResultSet

  /** The cursor after `k + 1` calls of `next` on a fresh cursor over `frame`. */
  function After(frame: Frame, k: nat): Cursor {
    Next(Run(Open(None, frame, "block"), k)).cursor
  }

  /** The walk over any frame: after `k + 1` calls the current record is row `k`. */
  lemma AfterIsRow(frame: Frame, k: nat)
    requires k < |frame.data|
    ensures After(frame, k).frame == frame && After(frame, k).recordData == Some(frame.data[k])
  {
    WalkVisitsRows(None, frame, "block", k);
    RunMoves(Open(None, frame, "block"), k);
  }

  /** The walk reaches envelope `j` of block `i` after `Offset(bs, i) + j + 1` calls. */
  lemma WalkReachesRecord(bs: seq<BlockInfo>, aliases: map<string, string>, i: nat, j: nat)
    requires i < |bs| && j < |bs[i].envelopes|
    ensures var c := After(Frame(Columns, Rows(bs), aliases), Offset(bs, i) + j);
      c.frame == Frame(Columns, Rows(bs), aliases) && c.recordData == Some(Record(bs[i], bs[i].envelopes[j]))
  {
    var frame := Frame(Columns, Rows(bs), aliases);
    var k := Offset(bs, i) + j;
    RowsLayout(bs, i, j);
    AfterIsRow(frame, k);
    assert frame.data[k] == Record(bs[i], bs[i].envelopes[j]);
  }

  /** The three columns read below are found by name at their cells. */
  lemma KeyColumnsFound()
    ensures ColumnPosition(Columns, "blockNo") == Some(BlockNoCell)
    ensures ColumnPosition(Columns, "transactionId") == Some(TransactionIdCell)
    ensures ColumnPosition(Columns, "previousHash") == Some(PreviousHashCell)
  {
    ColumnLayout();
    ColumnLookup(BlockNoCell);
    ColumnLookup(TransactionIdCell);
    ColumnLookup(PreviousHashCell);
  }

  /** On row `Offset(bs, i) + j` (envelope `j` of block `i`), the blockNo,
      transactionId and previousHash columns read back as that block's number,
      that envelope's id and the hex of that block's previous hash. */
  lemma CursorReadsBlock(bs: seq<BlockInfo>, aliases: map<string, string>, i: nat, j: nat)
    requires i < |bs| && j < |bs[i].envelopes|
    requires "blockNo" !in aliases && "transactionId" !in aliases && "previousHash" !in aliases
    requires LongMin <= bs[i].blockNumber <= LongMax
    ensures var c := After(Frame(Columns, Rows(bs), aliases), Offset(bs, i) + j);
      && GetLongByLabel(c, "blockNo") == Success(bs[i].blockNumber)
      && GetStringByLabel(c, "transactionId") == Success(Some(bs[i].envelopes[j].transactionId))
      && GetStringByLabel(c, "previousHash").Success?
      && GetStringByLabel(c, "previousHash").value.Some?
      && Decode(GetStringByLabel(c, "previousHash").value.value) == Some(bs[i].previousHash)
  {
    var c := After(Frame(Columns, Rows(bs), aliases), Offset(bs, i) + j);
    WalkReachesRecord(bs, aliases, i, j);
    var b := bs[i];
    var e := b.envelopes[j];
    KeyColumnsFound();
    RecordCells(b, e);
    ReadByName(c, "blockNo", BlockNoCell);
    ReadByName(c, "transactionId", TransactionIdCell);
    ReadByName(c, "previousHash", PreviousHashCell);
    IntegralRoundTrip(c, BlockNoCell + 1, LongMin, LongMax, b.blockNumber);
    DecodeEncode(b.previousHash);
  }
}

=== FILE: errors.dfy ===
/** The exceptions the driver core raises, one constructor per distinct
    condition, each carrying the offending name, literal or index. */
module Errors {

  import opened Wrappers

  datatype Error =
    // Raised while building the alias map: the same alias names two select items.
    | AmbiguousAlias(alias: string)
    // The FROM clause names a table other than `block`.
    | UnidentifiedTable(table: string)
    // A filter column is neither a whitelisted column nor an alias of one.
    | NotFilterable(column: string)
    // NumberFormatException: a literal or a cell text is not a decimal number of the requested width.
    | BadNumber(text: string)
    // DecoderException: a previous-hash literal is not an even-length hexadecimal string.
    | BadHex(text: string)
    // A compound WHERE node does not have exactly two operands.
    | MalformedLogicalOperation(operands: nat)
    // Any failure reported by the ledger client (proposal or argument errors).
    | LedgerFailure(cause: string)
    // The requested 1-based index exceeds the current record's length.
    | MissingIndex(index: int)
    // An index below 1 reaches the record array at a negative position.
    | IndexOutOfBounds(index: int)
    // No record has been loaded yet (the record array is still null).
    | NoCurrentRow
    // The result set has no column of that name.
    | MissingColumn(column: string)
    // An alias whose target column is absent from the frame (null unboxing).
    | UnresolvedAliasTarget(alias: string)

  /** Wraps a ledger-client outcome the way the core wraps its checked
      exceptions into its own exception type. */
  function Lift<T>(r: Result<T, string>): (l: Result<T, Error>)
    ensures l.Success? <==> r.Success?
    ensures r.Success? ==> l.value == r.value
    ensures r.Failure? ==> l.error == LedgerFailure(r.error)
  {
    match r
    case Success(v) => Success(v)
    case Failure(e) => Failure(LedgerFailure(e))
  }
}

=== FILE: flatten.dfy ===
/** blockToDataFrame: every envelope of every fetched block becomes one row
    of nine cells; the block-level cells repeat on each of the block's rows. */
module Flatten {

  import opened Wrappers
  import opened Hex
  import opened Ledger
  import opened Frames

  /** The fixed column order of the flattened table. */
  const Columns: seq<string> := ["previousHash", "blockDataHash", "transActionsMetaData", "transactionCount",
                                 "blockNo", "channelId", "transactionId", "transactionType", "timestamp"]

  /** Positions of the columns within a row. */
  const PreviousHashCell := 0
  const DataHashCell := 1
  const MetadataCell := 2
  const CountCell := 3
  const BlockNoCell := 4
  const ChannelCell := 5
  const TransactionIdCell := 6
  const TypeCell := 7
  const TimestampCell := 8

  /** The row for one envelope of a block. */
  function Record(b: BlockInfo, e: EnvelopeInfo): (r: seq<Value>)
    ensures |r| == |Columns|
  {
    [Str(Encode(b.previousHash)), Str(Encode(b.dataHash)), Str(Encode(b.transactionsMetadata)),
     Int(b.envelopeCount), Long(b.blockNumber), Str(b.channelId),
     Str(e.transactionId), Str(TypeName(e.kind)), Time(e.timestamp)]
  }

  /** The column names are pairwise distinct. */
  lemma ColumnsDistinct()
    ensures forall i, j :: 0 <= i < j < |Columns| ==> Columns[i] != Columns[j]
  {
    var lengths := seq(|Columns|, i requires 0 <= i < |Columns| => |Columns[i]|);
    assert lengths == [12, 13, 20, 16, 7, 9, 13, 15, 9];
    assert Columns[1][0] != Columns[6][0];
    assert Columns[5][0] != Columns[8][0];
  }

  /** Each column name sits at its cell's position, and looking it up by
      name finds that position. */
  lemma ColumnLayout()
    ensures Columns[PreviousHashCell] == "previousHash" && Columns[DataHashCell] == "blockDataHash"
    ensures Columns[MetadataCell] == "transActionsMetaData" && Columns[CountCell] == "transactionCount"
    ensures Columns[BlockNoCell] == "blockNo" && Columns[ChannelCell] == "channelId"
    ensures Columns[TransactionIdCell] == "transactionId" && Columns[TypeCell] == "transactionType"
    ensures Columns[TimestampCell] == "timestamp"
  {
  }

  /** Looking a column up by name finds its cell's position. */
  lemma ColumnLookup(k: nat)
    requires k < |Columns|
    ensures ColumnPosition(Columns, Columns[k]) == Some(k)
  {
    ColumnsDistinct();
    PositionOfDistinct(Columns, k);
  }

  /** The hash cells of a row decode back to the block's byte strings. */
  lemma RecordRecoversHashes(b: BlockInfo, e: EnvelopeInfo)
    ensures Record(b, e)[PreviousHashCell].Str? && Decode(Record(b, e)[PreviousHashCell].s) == Some(b.previousHash)
    ensures Record(b, e)[DataHashCell].Str? && Decode(Record(b, e)[DataHashCell].s) == Some(b.dataHash)
    ensures Record(b, e)[MetadataCell].Str? && Decode(Record(b, e)[MetadataCell].s) == Some(b.transactionsMetadata)
  {
    RecordCells(b, e);
    var r := Record(b, e);
    assert Decode(r[PreviousHashCell].s) == Some(b.previousHash) by {
      DecodeEncode(b.previousHash);
    }
    assert Decode(r[DataHashCell].s) == Some(b.dataHash) by {
      DecodeEncode(b.dataHash);
    }
    assert Decode(r[MetadataCell].s) == Some(b.transactionsMetadata) by {
      DecodeEncode(b.transactionsMetadata);
    }
  }

  /** Each cell of a row carries the block's or the envelope's value. */
  lemma RecordCells(b: BlockInfo, e: EnvelopeInfo)
    ensures Record(b, e)[PreviousHashCell] == Str(Encode(b.previousHash))
    ensures Record(b, e)[DataHashCell] == Str(Encode(b.dataHash))
    ensures Record(b, e)[MetadataCell] == Str(Encode(b.transactionsMetadata))
    ensures Record(b, e)[CountCell] == Int(b.envelopeCount)
    ensures Record(b, e)[BlockNoCell] == Long(b.blockNumber)
    ensures Record(b, e)[ChannelCell] == Str(b.channelId)
    ensures Record(b, e)[TransactionIdCell] == Str(e.transactionId)
    ensures Record(b, e)[TypeCell] == Str(TypeName(e.kind))
    ensures Record(b, e)[TimestampCell] == Time(e.timestamp)
  {
  }

  /** The rows of the envelopes `es` of block `b`, in envelope order. */
  function EnvelopeRows(b: BlockInfo, es: seq<EnvelopeInfo>): (r: seq<seq<Value>>)
    ensures |r| == |es|
    ensures forall j :: 0 <= j < |es| ==> r[j] == Record(b, es[j])
  {
    if |es| == 0 then [] else EnvelopeRows(b, es[..|es| - 1]) + [Record(b, es[|es| - 1])]
  }

  /** The number of envelopes over a list of blocks. */
  function TotalEnvelopes(bs: seq<BlockInfo>): nat {
    if |bs| == 0 then 0 else TotalEnvelopes(bs[..|bs| - 1]) + |bs[|bs| - 1].envelopes|
  }

  /** The flattened table as a reference definition: blocks in order, each
      contributing its envelope rows. */
  function Rows(bs: seq<BlockInfo>): (r: seq<seq<Value>>)
    ensures |r| == TotalEnvelopes(bs)
    ensures forall p :: 0 <= p < |r| ==> |r[p]| == |Columns|
  {
    if |bs| == 0 then []
    else
      var last := bs[|bs| - 1];
      Rows(bs[..|bs| - 1]) + EnvelopeRows(last, last.envelopes)
  }

  /** Where block `i`'s rows begin. */
  function Offset(bs: seq<BlockInfo>, i: nat): nat
    requires i <= |bs|
  {
    TotalEnvelopes(bs[..i])
  }

  /** A block's rows fit below the total. */
  lemma {:induction false} OffsetBound(bs: seq<BlockInfo>, i: nat)
    requires i < |bs|
    ensures Offset(bs, i) + |bs[i].envelopes| <= TotalEnvelopes(bs)
    ensures Offset(bs, i + 1) == Offset(bs, i) + |bs[i].envelopes|
    decreases |bs|
  {
    var init := bs[..|bs| - 1];
    assert bs[..i + 1][..i] == bs[..i];
    if i < |bs| - 1 {
      OffsetBound(init, i);
      assert init[..i] == bs[..i];
      assert init[..i + 1] == bs[..i + 1];
    } else {
      assert bs[..i] == init;
    }
  }

  /** Row `Offset(bs, i) + j` is the record of envelope `j` of block `i`: block
      order and envelope order are kept, and each row carries its own block's
      values. */
  lemma {:induction false} RowsLayout(bs: seq<BlockInfo>, i: nat, j: nat)
    requires i < |bs| && j < |bs[i].envelopes|
    ensures Offset(bs, i) + j < |Rows(bs)|
    ensures Rows(bs)[Offset(bs, i) + j] == Record(bs[i], bs[i].envelopes[j])
    decreases |bs|
  {
    OffsetBound(bs, i);
    var init := bs[..|bs| - 1];
    var last := bs[|bs| - 1];
    var tail := EnvelopeRows(last, last.envelopes);
    assert Rows(bs) == Rows(init) + tail;
    if i < |bs| - 1 {
      RowsLayout(init, i, j);
      assert init[..i] == bs[..i];
      assert init[i] == bs[i];
      assert Offset(bs, i) == Offset(init, i);
    } else {
      assert bs[..i] == init;
      assert Offset(bs, i) == |Rows(init)|;
    }
  }

  /** Every row is the record of some envelope of some block. */
  lemma {:induction false} RowsFromBlocks(bs: seq<BlockInfo>, p: nat)
    requires p < |Rows(bs)|
    ensures exists i, j :: 0 <= i < |bs| && 0 <= j < |bs[i].envelopes| && Rows(bs)[p] == Record(bs[i], bs[i].envelopes[j])
    decreases |bs|
  {
    var init := bs[..|bs| - 1];
    var last := bs[|bs| - 1];
    if p < |Rows(init)| {
      RowsFromBlocks(init, p);
      var i, j :| 0 <= i < |init| && 0 <= j < |init[i].envelopes| && Rows(init)[p] == Record(init[i], init[i].envelopes[j]);
      assert bs[i] == init[i];
    } else {
      var j := p - |Rows(init)|;
      assert Rows(bs)[p] == Record(last, last.envelopes[j]);
    }
  }

  /** The blockNo cell of every row is the number of one of the blocks. */
  lemma RowBlockNumber(bs: seq<BlockInfo>, p: nat)
    requires p < |Rows(bs)|
    ensures exists i :: 0 <= i < |bs| && Rows(bs)[p][BlockNoCell] == Long(bs[i].blockNumber)
  {
    RowsFromBlocks(bs, p);
    var i, j :| 0 <= i < |bs| && 0 <= j < |bs[i].envelopes| && Rows(bs)[p] == Record(bs[i], bs[i].envelopes[j]);
    RecordCells(bs[i], bs[i].envelopes[j]);
  }

  /** Blocks in ascending number (as the full scan returns them) give a
      non-decreasing blockNo column. */
  lemma {:induction false} AscendingBlocksGiveAscendingRows(bs: seq<BlockInfo>, p: nat, q: nat)
    requires forall i, k :: 0 <= i < k < |bs| ==> bs[i].blockNumber <= bs[k].blockNumber
    requires p <= q < |Rows(bs)|
    ensures Rows(bs)[p][BlockNoCell].Long? && Rows(bs)[q][BlockNoCell].Long?
    ensures Rows(bs)[p][BlockNoCell].n <= Rows(bs)[q][BlockNoCell].n
    decreases |bs|
  {
    var init := bs[..|bs| - 1];
    var last := bs[|bs| - 1];
    var tail := EnvelopeRows(last, last.envelopes);
    var n := |Rows(init)|;
    assert Rows(bs) == Rows(init) + tail;
    if q < n {
      forall i, k | 0 <= i < k < |init|
        ensures init[i].blockNumber <= init[k].blockNumber
      {
        assert init[i] == bs[i] && init[k] == bs[k];
      }
      AscendingBlocksGiveAscendingRows(init, p, q);
      assert Rows(bs)[p] == Rows(init)[p] && Rows(bs)[q] == Rows(init)[q];
    } else {
      assert Rows(bs)[q] == tail[q - n] == Record(last, last.envelopes[q - n]);
      RecordCells(last, last.envelopes[q - n]);
      if p < n {
        RowBlockNumber(init, p);
        assert Rows(bs)[p] == Rows(init)[p];
      } else {
        assert Rows(bs)[p] == tail[p - n] == Record(last, last.envelopes[p - n]);
        RecordCells(last, last.envelopes[p - n]);
      }
    }
  }

  /** A block without envelopes contributes no rows. */
  lemma EmptyBlockAddsNoRows(bs: seq<BlockInfo>, b: BlockInfo)
    requires |b.envelopes| == 0
    ensures Rows(bs + [b]) == Rows(bs)
  {
    assert (bs + [b])[..|bs|] == bs;
  }

  /** The loop of blockToDataFrame: outer loop over blocks, inner loop over
      envelopes, one row appended per envelope. The frame takes the fixed
      columns and the converter's alias mapping. */
  method BlockToDataFrame(blocks: seq<BlockInfo>, aliases: map<string, string>) returns (df: Frame)
    ensures df.columns == Columns && df.aliasMapping == aliases
    ensures df.data == Rows(blocks)
  {
    var data: seq<seq<Value>> := [];
    var i := 0;
    while i < |blocks|
      invariant 0 <= i <= |blocks|
      invariant data == Rows(blocks[..i])
    {
      var b := blocks[i];
      var j := 0;
      while j < |b.envelopes|
        invariant 0 <= j <= |b.envelopes|
        invariant data == Rows(blocks[..i]) + EnvelopeRows(b, b.envelopes[..j])
      {
        data := data + [Record(b, b.envelopes[j])];
        j := j + 1;
        assert b.envelopes[..j][..j - 1] == b.envelopes[..j - 1];
      }
      assert b.envelopes[..j] == b.envelopes;
      assert blocks[..i + 1][..i] == blocks[..i];
      i := i + 1;
    }
    assert blocks[..i] == blocks;
    df := Frame(Columns, data, aliases);
  }
}

=== FILE: frames.dfy ===
/** The tabular data the cursor walks over: loosely typed cells and the
    DataFrame (column names, rows, alias mapping) the query produces. */
module Frames {

  import opened Wrappers
  import opened Decimal
  import opened Ledger

  /** A cell: one of the Java objects the flattened rows hold, or null.
      `Int` is a boxed Integer and `Long` a boxed Long. */
  datatype Value =
    | Null
    | Str(s: string)
    | Int(n: int)
    | Long(n: int)
    | Bool(b: bool)
    | Time(t: Timestamp)

  /** The cell's toString. */
  function CellText(v: Value): (r: string)
    requires !v.Null?
    ensures v.Str? ==> r == v.s
    ensures v.Int? || v.Long? ==> IsNumeral(r) && NumeralValue(r) == v.n
    ensures v.Int? || v.Long? ==> r == Show(v.n)
    ensures v.Bool? ==> (r == "true" <==> v.b) && (r == "false" <==> !v.b)
    ensures v.Time? ==> r == v.t.rendered
  {
    match v
    case Str(s) => s
    case Int(n) => ShowIsNumeral(n); Show(n)
    case Long(n) => ShowIsNumeral(n); Show(n)
    case Bool(b) => if b then "true" else "false"
    case Time(t) => t.rendered
  }

  /** DataFrame: ordered column names, rows, and the alias mapping
      (alias -> column name) taken over from the query's select list. */
  datatype Frame = Frame(columns: seq<string>, data: seq<seq<Value>>, aliasMapping: map<string, string>)

  /** The position of the first column with exactly this name: the lookup
      DataFrame.getColumnNamesMap().get(name) answers (None for null). */
  function ColumnPosition(columns: seq<string>, name: string): (r: Option<nat>)
    ensures r.Some? ==> r.value < |columns| && columns[r.value] == name
    ensures r.Some? ==> forall j :: 0 <= j < r.value ==> columns[j] != name
    ensures r.None? <==> name !in columns
    decreases |columns|
  {
    if |columns| == 0 then None
    else if columns[0] == name then Some(0)
    else match ColumnPosition(columns[1..], name)
      case Some(k) => Some(k + 1)
      case None => None
  }

  /** With distinct column names, the k-th name is found at position k. */
  lemma PositionOfDistinct(columns: seq<string>, k: nat)
    requires k < |columns|
    requires forall i, j :: 0 <= i < j < |columns| ==> columns[i] != columns[j]
    ensures ColumnPosition(columns, columns[k]) == Some(k)
  {
    assert columns[k] in columns;
  }
}

=== FILE: hex.dfy ===
/** Hexadecimal text of byte strings as Apache commons-codec writes and reads
    it: Hex.encodeHexString (two lower-case digits per byte) and Hex.decodeHex
    (an even number of hexadecimal digits of either case). */
module Hex {

  import opened Wrappers
  import opened Text

  type byte = x: int | 0 <= x < 256

  /** The lower-case digit for a value below 16. */
  function HexChar(d: nat): char
    requires d < 16
  {
    if d < 10 then ('0' as int + d) as char else ('a' as int + d - 10) as char
  }

  /** Character.digit(c, 16) over ASCII: None where the codec reports an
      illegal hexadecimal character. */
  function DigitValue(c: char): (r: Option<nat>)
    ensures r.Some? ==> r.value < 16
  {
    if '0' <= c <= '9' then Some(c as int - '0' as int)
    else if 'a' <= c <= 'f' then Some(c as int - 'a' as int + 10)
    else if 'A' <= c <= 'F' then Some(c as int - 'A' as int + 10)
    else None
  }

  /** Hex.encodeHexString: two lower-case digits per byte, high nibble first. */
  function Encode(bs: seq<byte>): (s: string)
    ensures |s| == 2 * |bs|
    ensures forall k :: 0 <= k < |bs| ==> s[2 * k] == HexChar(bs[k] / 16) && s[2 * k + 1] == HexChar(bs[k] % 16)
    decreases |bs|
  {
    if |bs| == 0 then ""
    else [HexChar(bs[0] / 16), HexChar(bs[0] % 16)] + Encode(bs[1..])
  }

  /** Hex.decodeHex: an odd length or an illegal digit is a DecoderException (None). */
  function Decode(s: string): (r: Option<seq<byte>>)
    ensures r.Some? ==> |s| == 2 * |r.value|
    ensures r.Some? <==> |s| % 2 == 0 && forall i :: 0 <= i < |s| ==> DigitValue(s[i]).Some?
    ensures r.Some? ==> forall k :: 0 <= k < |r.value| ==>
      r.value[k] == DigitValue(s[2 * k]).value * 16 + DigitValue(s[2 * k + 1]).value
  {
    if |s| % 2 == 1 then None else DecodePairs(s)
  }

  function DecodePairs(s: string): (r: Option<seq<byte>>)
    requires |s| % 2 == 0
    ensures r.Some? ==> |s| == 2 * |r.value|
    ensures r.Some? <==> forall i :: 0 <= i < |s| ==> DigitValue(s[i]).Some?
    ensures r.Some? ==> forall k :: 0 <= k < |r.value| ==>
      r.value[k] == DigitValue(s[2 * k]).value * 16 + DigitValue(s[2 * k + 1]).value
    decreases |s|
  {
    if |s| == 0 then Some([])
    else
      assert forall i :: 2 <= i < |s| ==> s[i] == s[2..][i - 2];
      match (DigitValue(s[0]), DigitValue(s[1]), DecodePairs(s[2..]))
      case (Some(hi), Some(lo), Some(rest)) => Some([hi * 16 + lo] + rest)
      case _ => None
  }

  lemma DigitOfHexChar(d: nat)
    requires d < 16
    ensures DigitValue(HexChar(d)) == Some(d)
  {
  }

  lemma HexCharOfDigit(c: char)
    requires DigitValue(c).Some?
    ensures HexChar(DigitValue(c).value) == Lower(c)
  {
  }

  lemma {:induction false} DecodePairsEncode(bs: seq<byte>)
    ensures DecodePairs(Encode(bs)) == Some(bs)
    decreases |bs|
  {
    if |bs| > 0 {
      var s := Encode(bs);
      var hi, lo := bs[0] / 16, bs[0] % 16;
      assert s[0] == HexChar(hi) && s[1] == HexChar(lo) && s[2..] == Encode(bs[1..]);
      DigitOfHexChar(hi);
      DigitOfHexChar(lo);
      DecodePairsEncode(bs[1..]);
      assert [hi * 16 + lo] + bs[1..] == bs;
    }
  }

  /** Decoding an encoding gives the bytes back. */
  lemma DecodeEncode(bs: seq<byte>)
    ensures Decode(Encode(bs)) == Some(bs)
  {
    var s := Encode(bs);
    assert |s| % 2 == 0;
    DecodePairsEncode(bs);
    assert Decode(s) == DecodePairs(s);
  }

  lemma SplitByte(hi: nat, lo: nat)
    requires hi < 16 && lo < 16
    ensures (hi * 16 + lo) / 16 == hi && (hi * 16 + lo) % 16 == lo
  {
  }

  lemma LowerStringPair(s: string)
    requires 2 <= |s|
    ensures LowerString(s) == [Lower(s[0]), Lower(s[1])] + LowerString(s[2..])
  {
  }

  /** One decoded pair encodes back to the pair in lower case. */
  lemma EncodePair(c0: char, c1: char)
    requires DigitValue(c0).Some? && DigitValue(c1).Some?
    ensures Encode([DigitValue(c0).value * 16 + DigitValue(c1).value]) == [Lower(c0), Lower(c1)]
  {
    var hi, lo := DigitValue(c0).value, DigitValue(c1).value;
    SplitByte(hi, lo);
    HexCharOfDigit(c0);
    HexCharOfDigit(c1);
    var b: byte := hi * 16 + lo;
    assert Encode([b]) == [HexChar(b / 16), HexChar(b % 16)] + Encode([]);
  }

  lemma EncodeCons(b: byte, bs: seq<byte>)
    ensures Encode([b] + bs) == Encode([b]) + Encode(bs)
  {
    assert ([b] + bs)[1..] == bs;
    assert [b][1..] == [];
  }

  lemma {:induction false} EncodeDecodePairs(s: string)
    requires |s| % 2 == 0 && DecodePairs(s).Some?
    ensures Encode(DecodePairs(s).value) == LowerString(s)
    decreases |s|
  {
    if |s| > 0 {
      var b: byte := DigitValue(s[0]).value * 16 + DigitValue(s[1]).value;
      var rest := DecodePairs(s[2..]).value;
      assert DecodePairs(s).value == [b] + rest;
      EncodeDecodePairs(s[2..]);
      EncodePair(s[0], s[1]);
      EncodeCons(b, rest);
      LowerStringPair(s);
    }
  }

  /** Encoding what was decoded gives the input text in lower case. */
  lemma EncodeDecode(s: string)
    requires Decode(s).Some?
    ensures Encode(Decode(s).value) == LowerString(s)
  {
    EncodeDecodePairs(s);
  }

  /** Distinct byte strings have distinct encodings, so keying on the encoded
      text is keying on the bytes. */
  lemma EncodeInjective(a: seq<byte>, b: seq<byte>)
    requires Encode(a) == Encode(b)
    ensures a == b
  {
    DecodeEncode(a);
    DecodeEncode(b);
  }
}

=== FILE: ledger.dfy ===
/** The ledger records the core reads and the narrow capability through which
    it reads them. The ledger client itself is outside the model: each query
    it offers is a function-typed field of `Channel`, so every property below
    holds for every ledger. */
module Ledger {

  import opened Wrappers
  import opened Hex

  /** BlockInfo.EnvelopeType. */
  datatype EnvelopeType = TransactionEnvelope | Envelope

  /** The enum constant's name, which is what its toString yields. */
  function TypeName(t: EnvelopeType): string {
    match t
    case TransactionEnvelope => "TRANSACTION_ENVELOPE"
    case Envelope => "ENVELOPE"
  }

  /** An envelope timestamp: its instant and the text its toString yields
      (that rendering depends on the JVM's time zone, so it is part of the value). */
  datatype Timestamp = Timestamp(millis: int, rendered: string)

  /** BlockInfo.EnvelopeInfo: one entry of a block. */
  datatype EnvelopeInfo = EnvelopeInfo(transactionId: string, kind: EnvelopeType, timestamp: Timestamp)

  /** BlockInfo: one fetched block. `envelopeCount` is reported by the block
      separately from the list of envelopes it decodes. */
  datatype BlockInfo = BlockInfo(
    previousHash: seq<byte>,
    dataHash: seq<byte>,
    transactionsMetadata: seq<byte>,
    envelopeCount: int,
    blockNumber: int,
    channelId: string,
    envelopes: seq<EnvelopeInfo>)

  /** The channel queries the core issues: queryBlockchainInfo().getHeight(),
      queryBlockByNumber, queryBlockByHash and queryBlockByTransactionID.
      A failure carries the ledger client's message. */
  datatype Channel = Channel(
    height: Result<int, string>,
    byNumber: int -> Result<BlockInfo, string>,
    byHash: seq<byte> -> Result<BlockInfo, string>,
    byTransactionId: string -> Result<BlockInfo, string>)
}

=== FILE: pipeline.dfy ===
/** The APIConverter object: its constructor's alias map, and executeQuery,
    which fetches, flattens and hands the frame to the relational operations
    of DataFrame in a fixed order. Those operations live outside the core, so
    the frame a query yields is a term naming them, and what is proved is the
    order in which they are applied and the arguments they get. */
module Pipeline {

  import opened Wrappers
  import opened Errors
  import opened Ledger
  import opened Frames
  import opened Plan
  import opened Translator
  import opened Flatten

  /** A select item that contributes to the alias map: one carrying both an
      identifier and a column. */
  predicate Named(item: SelectItem) {
    item.alias.Some? && item.column.Some?
  }

  /** No two named items share an alias. */
  predicate AliasesDistinct(items: seq<SelectItem>) {
    forall i, j :: 0 <= i < j < |items| && Named(items[i]) && Named(items[j]) ==>
      items[i].alias.value != items[j].alias.value
  }

  /** The aliases of the named items. */
  function AliasSet(items: seq<SelectItem>): set<string> {
    set i | 0 <= i < |items| && Named(items[i]) :: items[i].alias.value
  }

  /** Item `j` is the first whose alias was already taken. */
  predicate FirstRepeat(items: seq<SelectItem>, j: int) {
    0 <= j < |items| && Named(items[j]) && AliasesDistinct(items[..j])
    && exists i :: 0 <= i < j && Named(items[i]) && items[i].alias.value == items[j].alias.value
  }

  lemma AliasSetSnoc(items: seq<SelectItem>, item: SelectItem)
    ensures AliasSet(items + [item]) == AliasSet(items) + (if Named(item) then {item.alias.value} else {})
  {
    var all := items + [item];
    forall a | a in AliasSet(all)
      ensures a in AliasSet(items) + (if Named(item) then {item.alias.value} else {})
    {
      var i :| 0 <= i < |all| && Named(all[i]) && all[i].alias.value == a;
      if i < |items| {
        assert items[i] == all[i];
      }
    }
    forall a | a in AliasSet(items)
      ensures a in AliasSet(all)
    {
      var i :| 0 <= i < |items| && Named(items[i]) && items[i].alias.value == a;
      assert all[i] == items[i];
    }
    if Named(item) {
      assert all[|items|] == item;
    }
  }

  /** The constructor's loop over the select list: each named item adds
      alias -> column; an alias seen before fails with AmbiguousAlias; other
      items add nothing. */
  function BuildAliasMap(items: seq<SelectItem>): (r: Result<map<string, string>, Error>)
    ensures r.Failure? ==> r.error.AmbiguousAlias?
  {
    if |items| == 0 then Success(map[])
    else
      var item := items[|items| - 1];
      var m :- BuildAliasMap(items[..|items| - 1]);
      if Named(item) then
        if item.alias.value in m then Failure(AmbiguousAlias(item.alias.value))
        else Success(m[item.alias.value := item.column.value])
      else Success(m)
  }

  /** The alias map is built exactly when no alias repeats, and then it maps
      the aliases of the named items, each to its item's column. */
  lemma {:induction false} AliasMapContents(items: seq<SelectItem>)
    ensures BuildAliasMap(items).Success? <==> AliasesDistinct(items)
    ensures BuildAliasMap(items).Success? ==> BuildAliasMap(items).value.Keys == AliasSet(items)
    ensures BuildAliasMap(items).Success? ==> forall i :: 0 <= i < |items| && Named(items[i]) ==>
      BuildAliasMap(items).value[items[i].alias.value] == items[i].column.value
  {
    if |items| > 0 {
      var init := items[..|items| - 1];
      var item := items[|items| - 1];
      assert items == init + [item];
      BuildStep(init, item);
      AliasMapContents(init);
      var r := BuildAliasMap(items);
      if r.Success? {
        var m := BuildAliasMap(init).value;
        forall i | 0 <= i < |items| && Named(items[i])
          ensures r.value[items[i].alias.value] == items[i].column.value
        {
          if i < |init| {
            assert items[i] == init[i];
            if Named(item) {
              assert items[i].alias.value != item.alias.value;
            }
          }
        }
      }
    }
  }

  /** A failure names the alias of the first item whose alias was taken. */
  lemma {:induction false} AliasMapFailure(items: seq<SelectItem>)
    ensures BuildAliasMap(items).Failure? ==>
      exists j :: FirstRepeat(items, j) && BuildAliasMap(items).error == AmbiguousAlias(items[j].alias.value)
  {
    if |items| > 0 {
      var init := items[..|items| - 1];
      var item := items[|items| - 1];
      assert items == init + [item];
      BuildStep(init, item);
      AliasMapFailure(init);
      AliasMapContents(init);
      if BuildAliasMap(init).Success? && BuildAliasMap(items).Failure? {
        assert FirstRepeat(items, |init|);
      }
    }
  }

  /** The facts the alias-map proofs need about one more item. */
  lemma BuildStep(init: seq<SelectItem>, item: SelectItem)
    ensures (init + [item])[..|init|] == init
    ensures AliasSet(init + [item]) == AliasSet(init) + (if Named(item) then {item.alias.value} else {})
    ensures AliasesDistinct(init + [item]) <==>
      AliasesDistinct(init) && (Named(item) ==> item.alias.value !in AliasSet(init))
    ensures FirstRepeat(init + [item], |init|) <==>
      AliasesDistinct(init) && Named(item) && item.alias.value in AliasSet(init)
    ensures forall j :: 0 <= j < |init| ==> (FirstRepeat(init, j) ==> FirstRepeat(init + [item], j))
  {
    var all := init + [item];
    assert all[..|init|] == init;
    AliasSetSnoc(init, item);
    forall j | 0 <= j < |init| && FirstRepeat(init, j)
      ensures FirstRepeat(all, j)
    {
      assert all[..j] == init[..j];
      var i :| 0 <= i < j && Named(init[i]) && init[i].alias.value == init[j].alias.value;
      assert all[i] == init[i];
    }
    if AliasesDistinct(init) && Named(item) && item.alias.value in AliasSet(init) {
      var i :| 0 <= i < |init| && Named(init[i]) && init[i].alias.value == item.alias.value;
      assert all[i] == init[i] && all[|init|] == item;
      assert !AliasesDistinct(all);
    }
  }

  /** Appending an item without an identifier or without a column leaves the
      map alone. */
  lemma UnnamedItemsAddNothing(items: seq<SelectItem>, item: SelectItem)
    requires !Named(item)
    ensures BuildAliasMap(items + [item]) == BuildAliasMap(items)
  {
    assert (items + [item])[..|items|] == items;
  }

  /** A converter: the query, its select items and the alias map. */
  datatype Converter = Converter(query: Query, selectItems: seq<SelectItem>, aliasMapping: map<string, string>)

  /** The APIConverter constructor. */
  function NewConverter(q: Query): (r: Result<Converter, Error>)
    ensures r.Success? <==> AliasesDistinct(q.selectItems)
    ensures r.Success? ==> r.value.query == q && r.value.selectItems == q.selectItems
    ensures r.Success? ==> r.value.aliasMapping.Keys == AliasSet(q.selectItems)
    ensures r.Success? ==> forall i :: 0 <= i < |q.selectItems| && Named(q.selectItems[i]) ==>
      r.value.aliasMapping[q.selectItems[i].alias.value] == q.selectItems[i].column.value
    ensures r.Failure? ==> exists j :: FirstRepeat(q.selectItems, j) && r.error == AmbiguousAlias(q.selectItems[j].alias.value)
  {
    AliasMapContents(q.selectItems);
    AliasMapFailure(q.selectItems);
    var m :- BuildAliasMap(q.selectItems);
    Success(Converter(q, q.selectItems, m))
  }

  /** A grouped frame: the group operation and an optional HAVING on top. */
  datatype GroupExpr =
    | Grouped(frame: Frame, columns: seq<string>)
    | Filtered(group: GroupExpr, having: HavingClause)

  /** A frame built by the DataFrame operations. */
  datatype FrameExpr =
    | Source(frame: Frame)
    | Ordered(inner: FrameExpr, order: seq<OrderItem>)
    | Limited(inner: FrameExpr, limit: LimitClause)
    | Selected(inner: FrameExpr, items: seq<SelectItem>)
    | GroupSelected(group: GroupExpr, items: seq<SelectItem>)

  /** The operations applied, innermost first. */
  datatype Stage = Group | Having | Select | Order | Limit

  function GroupStages(g: GroupExpr): seq<Stage> {
    match g
    case Grouped(_, _) => [Group]
    case Filtered(inner, _) => GroupStages(inner) + [Having]
  }

  function Stages(e: FrameExpr): seq<Stage> {
    match e
    case Source(_) => []
    case Ordered(inner, _) => Stages(inner) + [Order]
    case Limited(inner, _) => Stages(inner) + [Limit]
    case Selected(inner, _) => Stages(inner) + [Select]
    case GroupSelected(g, _) => GroupStages(g) + [Select]
  }

  /** The frame the operations start from. */
  function Base(e: FrameExpr): Frame {
    match e
    case Source(f) => f
    case Ordered(inner, _) => Base(inner)
    case Limited(inner, _) => Base(inner)
    case Selected(inner, _) => Base(inner)
    case GroupSelected(g, _) => GroupBase(g)
  }

  function GroupBase(g: GroupExpr): Frame {
    match g
    case Grouped(f, _) => f
    case Filtered(inner, _) => GroupBase(inner)
  }

  /** The argument a term's order operation receives; None without one. */
  function OrderArg(e: FrameExpr): Option<seq<OrderItem>> {
    match e
    case Source(_) => None
    case Ordered(_, order) => Some(order)
    case Limited(inner, _) => OrderArg(inner)
    case Selected(inner, _) => OrderArg(inner)
    case GroupSelected(_, _) => None
  }

  /** The argument a term's limit operation receives; None without one. */
  function LimitArg(e: FrameExpr): Option<LimitClause> {
    match e
    case Source(_) => None
    case Ordered(inner, _) => LimitArg(inner)
    case Limited(_, limit) => Some(limit)
    case Selected(inner, _) => LimitArg(inner)
    case GroupSelected(_, _) => None
  }

  /** The items a term's select operation receives; None without one. */
  function SelectArg(e: FrameExpr): Option<seq<SelectItem>> {
    match e
    case Source(_) => None
    case Ordered(inner, _) => SelectArg(inner)
    case Limited(inner, _) => SelectArg(inner)
    case Selected(_, items) => Some(items)
    case GroupSelected(_, items) => Some(items)
  }

  /** The columns a term's group operation receives; None without one. */
  function GroupArg(e: FrameExpr): Option<seq<string>> {
    match e
    case Source(_) => None
    case Ordered(inner, _) => GroupArg(inner)
    case Limited(inner, _) => GroupArg(inner)
    case Selected(inner, _) => GroupArg(inner)
    case GroupSelected(g, _) => Some(GroupColumns(g))
  }

  function GroupColumns(g: GroupExpr): seq<string> {
    match g
    case Grouped(_, columns) => columns
    case Filtered(inner, _) => GroupColumns(inner)
  }

  /** The clause a term's having operation receives; None without one. */
  function HavingArg(e: FrameExpr): Option<HavingClause> {
    match e
    case Source(_) => None
    case Ordered(inner, _) => HavingArg(inner)
    case Limited(inner, _) => HavingArg(inner)
    case Selected(inner, _) => HavingArg(inner)
    case GroupSelected(g, _) => match g
      case Grouped(_, _) => None
      case Filtered(_, having) => Some(having)
  }

  /** The stage `x` when its clause is present, nothing otherwise. */
  function When(present: bool, x: Stage): seq<Stage> {
    if present then [x] else []
  }

  /** The second half of executeQuery: with GROUP BY, group, then HAVING when
      present, then select, then order and limit when present; without it,
      order and limit when present, then select last. */
  function Compose(q: Query, items: seq<SelectItem>, df: Frame): (r: FrameExpr)
    ensures Base(r) == df
    ensures q.groupBy.Some? ==> (Stages(r) ==
      [Group] + When(q.having.Some?, Having) + [Select] + When(q.orderBy.Some?, Order) + When(q.limit.Some?, Limit))
    ensures q.groupBy.None? ==> (Stages(r) ==
      When(q.orderBy.Some?, Order) + When(q.limit.Some?, Limit) + [Select])
    ensures SelectArg(r) == Some(items) && OrderArg(r) == q.orderBy && LimitArg(r) == q.limit
    ensures GroupArg(r) == q.groupBy
    ensures HavingArg(r) == if q.groupBy.Some? then q.having else None
  {
    if q.groupBy.Some? then
      var grouped := Grouped(df, q.groupBy.value);
      var filtered := if q.having.Some? then Filtered(grouped, q.having.value) else grouped;
      assert GroupStages(filtered) == [Group] + When(q.having.Some?, Having);
      var afterSelect := GroupSelected(filtered, items);
      var afterOrder := if q.orderBy.Some? then Ordered(afterSelect, q.orderBy.value) else afterSelect;
      assert Stages(afterOrder) == Stages(afterSelect) + When(q.orderBy.Some?, Order);
      assert Base(afterOrder) == GroupBase(filtered) == df;
      var r := if q.limit.Some? then Limited(afterOrder, q.limit.value) else afterOrder;
      assert Stages(r) == Stages(afterOrder) + When(q.limit.Some?, Limit);
      assert GroupColumns(filtered) == q.groupBy.value;
      assert SelectArg(afterOrder) == Some(items) && GroupArg(afterOrder) == q.groupBy;
      assert HavingArg(afterOrder) == q.having && LimitArg(afterOrder) == None;
      r
    else
      var preSelect := if q.orderBy.Some? then Ordered(Source(df), q.orderBy.value) else Source(df);
      assert Stages(preSelect) == When(q.orderBy.Some?, Order);
      var afterLimit := if q.limit.Some? then Limited(preSelect, q.limit.value) else preSelect;
      assert Stages(afterLimit) == Stages(preSelect) + When(q.limit.Some?, Limit);
      assert Base(preSelect) == df;
      assert Base(afterLimit) == df;
      assert OrderArg(preSelect) == q.orderBy && LimitArg(preSelect) == None;
      assert GroupArg(preSelect) == None && HavingArg(preSelect) == None;
      assert OrderArg(afterLimit) == q.orderBy && LimitArg(afterLimit) == q.limit;
      assert GroupArg(afterLimit) == None && HavingArg(afterLimit) == None;
      Selected(afterLimit, items)
  }

  /** The position of the first occurrence of a stage. */
  function IndexOf(s: seq<Stage>, x: Stage): (r: nat)
    ensures r <= |s|
    ensures r < |s| ==> s[r] == x
    ensures forall k :: 0 <= k < r ==> s[k] != x
  {
    if |s| == 0 then 0
    else if s[0] == x then 0
    else IndexOf(s[1..], x) + 1
  }

  /** Without GROUP BY the select comes last, and its argument is the query's
      select list applied to the ordered and limited frame. */
  lemma SelectLastWithoutGrouping(q: Query, items: seq<SelectItem>, df: Frame)
    requires q.groupBy.None?
    ensures Compose(q, items, df).Selected? && Compose(q, items, df).items == items
    ensures Select !in Stages(Compose(q, items, df).inner)
  {
  }

  /** Without GROUP BY, HAVING has no effect. */
  lemma HavingIgnoredWithoutGroupBy(q: Query, h: Option<HavingClause>, items: seq<SelectItem>, df: Frame)
    requires q.groupBy.None?
    ensures Compose(q.(having := h), items, df) == Compose(q, items, df)
  {
  }

  /** The first occurrence is found where it is. */
  lemma IndexOfAt(s: seq<Stage>, x: Stage, k: nat)
    requires k < |s| && s[k] == x
    requires forall j :: 0 <= j < k ==> s[j] != x
    ensures IndexOf(s, x) == k
  {
  }

  /** On both paths the order is applied before the limit. */
  lemma OrderBeforeLimit(q: Query, items: seq<SelectItem>, df: Frame)
    requires q.orderBy.Some? && q.limit.Some?
    ensures var s := Stages(Compose(q, items, df));
      IndexOf(s, Order) < IndexOf(s, Limit) < |s|
  {
    var s := Stages(Compose(q, items, df));
    var h := if q.groupBy.Some? then 2 + (if q.having.Some? then 1 else 0) else 0;
    assert s[h] == Order && s[h + 1] == Limit;
    assert forall j :: 0 <= j < h ==> s[j] != Order && s[j] != Limit;
    IndexOfAt(s, Order, h);
    IndexOfAt(s, Limit, h + 1);
  }

  /** With GROUP BY: group first, HAVING (when present) directly after it,
      then select. */
  lemma GroupedHead(q: Query, items: seq<SelectItem>, df: Frame)
    requires q.groupBy.Some?
    ensures var s := Stages(Compose(q, items, df));
      IndexOf(s, Group) == 0
      && (q.having.Some? ==> IndexOf(s, Having) == 1)
      && (q.having.None? ==> Having !in s)
      && IndexOf(s, Select) == (if q.having.Some? then 2 else 1)
  {
    var s := Stages(Compose(q, items, df));
    var sel := if q.having.Some? then 2 else 1;
    assert s[0] == Group && s[sel] == Select;
    assert forall j :: 0 <= j < sel ==> s[j] != Select;
    IndexOfAt(s, Select, sel);
    if q.having.Some? {
      IndexOfAt(s, Having, 1);
    } else {
      assert forall j :: 0 <= j < |s| ==> s[j] != Having;
    }
  }

  /** With GROUP BY, order and limit (when present) come after the select,
      the order before the limit. */
  lemma GroupedTail(q: Query, items: seq<SelectItem>, df: Frame)
    requires q.groupBy.Some?
    ensures var s := Stages(Compose(q, items, df));
      && (q.orderBy.Some? ==> IndexOf(s, Select) < IndexOf(s, Order) < |s|)
      && (q.limit.Some? ==> IndexOf(s, Select) < IndexOf(s, Limit) < |s|)
  {
    var s := Stages(Compose(q, items, df));
    var sel := if q.having.Some? then 2 else 1;
    assert s[sel] == Select;
    assert forall j :: 0 <= j < sel ==> s[j] != Select;
    IndexOfAt(s, Select, sel);
    if q.orderBy.Some? {
      assert s[sel + 1] == Order;
      assert forall j :: 0 <= j <= sel ==> s[j] != Order;
      IndexOfAt(s, Order, sel + 1);
    }
    if q.limit.Some? {
      var l := if q.orderBy.Some? then sel + 2 else sel + 1;
      assert s[l] == Limit;
      assert forall j :: 0 <= j < l ==> s[j] != Limit;
      IndexOfAt(s, Limit, l);
    }
  }

  /** Without GROUP BY: order (when present) first, then limit (when
      present), and select last. */
  lemma UngroupedOrder(q: Query, items: seq<SelectItem>, df: Frame)
    requires q.groupBy.None?
    ensures var s := Stages(Compose(q, items, df));
      Group !in s && Having !in s
      && IndexOf(s, Select) == |s| - 1
      && (q.orderBy.Some? ==> IndexOf(s, Order) == 0)
      && (q.limit.Some? ==> IndexOf(s, Limit) < IndexOf(s, Select))
  {
    var s := Stages(Compose(q, items, df));
    assert forall j :: 0 <= j < |s| - 1 ==> s[j] != Select;
    IndexOfAt(s, Select, |s| - 1);
    if q.limit.Some? {
      var l := if q.orderBy.Some? then 1 else 0;
      assert s[l] == Limit;
      IndexOfAt(s, Limit, l);
    }
  }

  /** executeQuery: fetch the blocks, flatten them with the converter's
      alias map, and compose the relational operations. A failing fetch
      fails the query with its error. */
  method ExecuteQuery(c: Converter, ch: Channel) returns (r: Result<FrameExpr, Error>)
    ensures var fetched := GetFromTable(c.query.table, c.query.where, c.aliasMapping, ch);
      && (r.Failure? <==> fetched.Failure?)
      && (r.Failure? ==> r.error == fetched.error)
      && (r.Success? ==> Base(r.value) == Frame(Columns, Rows(fetched.value), c.aliasMapping))
      && (r.Success? ==> r.value == Compose(c.query, c.selectItems, Base(r.value)))
  {
    var fetched := GetFromTable(c.query.table, c.query.where, c.aliasMapping, ch);
    if fetched.Failure? {
      return Failure(fetched.error);
    }
    var df := BlockToDataFrame(fetched.value, c.aliasMapping);
    r := Success(Compose(c.query, c.selectItems, df));
  }

  /** A ledger that answers every block number with the block of that number. */
  ghost predicate Honest(ch: Channel) {
    forall n :: ch.byNumber(n).Success? ==> ch.byNumber(n).value.blockNumber == n
  }

  /** The full scan of an honest ledger flattens into rows in non-decreasing
      block number, none of them from block 0. */
  lemma FullScanRowsAscending(ch: Channel, p: nat, q: nat)
    requires Honest(ch)
    requires FullScan(ch).Success?
    requires p <= q < |Rows(FullScan(ch).value)|
    ensures Rows(FullScan(ch).value)[p][BlockNoCell].Long? && Rows(FullScan(ch).value)[q][BlockNoCell].Long?
    ensures 1 <= Rows(FullScan(ch).value)[p][BlockNoCell].n <= Rows(FullScan(ch).value)[q][BlockNoCell].n
  {
    var bs := FullScan(ch).value;
    assert forall k :: 0 <= k < |bs| ==> ch.byNumber(k + 1) == Success(bs[k]);
    assert forall k :: 0 <= k < |bs| ==> bs[k].blockNumber == k + 1;
    AscendingBlocksGiveAscendingRows(bs, p, q);
    RowBlockNumber(bs, p);
  }
}

=== FILE: plan.dfy ===
/** The parsed query the core reads. The parser that builds it is not part
    of this model; only the parts of the tree the core inspects appear. */
module Plan {

  import opened Wrappers

  /** A select item. `alias` is its own identifier child (`... AS alias`) and
      `column` the identifier of its column child; an item such as a function
      call has no column child, a bare column no identifier child. */
  datatype SelectItem = SelectItem(alias: Option<string>, column: Option<string>)

  /** The comparison of a filter item; the core never looks at it. */
  datatype Comparator = Eq | Ne | Lt | Le | Gt | Ge

  /** A single comparison of the WHERE clause: an optional column, the
      comparator, and the literal's identifier text as the parser left it. */
  datatype FilterItem = FilterItem(column: Option<string>, comparator: Comparator, literal: string)

  /** The WHERE tree: a filter item, or a logical operation over its child nodes. */
  datatype Filter = Leaf(item: FilterItem) | Op(isAnd: bool, children: seq<Filter>)

  datatype OrderItem = OrderItem(column: string, descending: bool)

  /** The HAVING clause, handed to the grouped frame untouched. */
  datatype HavingClause = HavingClause(condition: Filter)

  /** The LIMIT clause, handed to the frame untouched. */
  datatype LimitClause = LimitClause(count: string)

  datatype Query = Query(
    selectItems: seq<SelectItem>,
    table: string,
    where: Option<Filter>,
    groupBy: Option<seq<string>>,
    having: Option<HavingClause>,
    orderBy: Option<seq<OrderItem>>,
    limit: Option<LimitClause>)
}

=== FILE: resultset.dfy ===
/** FabricResultSet: a forward-only cursor over a frame. Its state is the
    record index (before the first row at -1), the closed flag, the statement
    handle and the current record; each JDBC call is a function from state to
    state (and answer), and accessors read the current record. */
module ResultSet {

  import opened Wrappers
  import opened Errors
  import opened Text
  import opened Decimal
  import opened Frames

  /** BEFORE_FIRST. */
  const BeforeFirst := -1

  /** A record index; `next` only ever moves it up from BeforeFirst. */
  type Position = i: int | BeforeFirst <= i witness BeforeFirst

  /** The cursor state. `statement` is the owning statement's handle (None
      for null); `recordData` is the current record (None until the first
      successful `next`). */
  datatype Cursor = Cursor(
    statement: Option<nat>,
    frame: Frame,
    tableName: string,
    recIdx: Position,
    closed: bool,
    recordData: Option<seq<Value>>)

  /** The current record is the row at the index, or the last row once the
      index has run past the end, or none before the first row. */
  predicate Consistent(c: Cursor) {
    var size := |c.frame.data|;
    if c.recIdx >= 0 && size > 0 then
      c.recordData == Some(c.frame.data[if c.recIdx < size then c.recIdx else size - 1])
    else
      c.recordData.None?
  }

  /** The constructor. */
  function Open(statement: Option<nat>, frame: Frame, tableName: string): (c: Cursor)
    ensures c.recIdx == BeforeFirst && !c.closed && c.recordData.None?
    ensures c.frame == frame && c.statement == statement && c.tableName == tableName
    ensures Consistent(c)
  {
    Cursor(statement, frame, tableName, BeforeFirst, false, None)
  }

  /** close: the first call marks the cursor closed and drops the statement;
      later calls do nothing. Position, frame and record are untouched. */
  function Close(c: Cursor): (r: Cursor)
    ensures r.closed
    ensures !c.closed ==> r.statement.None?
    ensures r.recIdx == c.recIdx && r.frame == c.frame && r.recordData == c.recordData
    ensures r.tableName == c.tableName
    ensures Consistent(c) ==> Consistent(r)
  {
    if !c.closed then c.(closed := true, statement := None) else c
  }

  lemma CloseIdempotent(c: Cursor)
    ensures Close(Close(c)) == Close(c)
  {
  }

  /** The outcome of `next`: the new state and the answer. */
  datatype Advance = Advance(cursor: Cursor, hasRow: bool)

  /** next: the index always moves up by one; when it is still inside the
      frame, the row there becomes the current record and the answer is true;
      otherwise the answer is false and the previous record stays. The closed
      flag is not consulted. */
  function Next(c: Cursor): (r: Advance)
    ensures r.cursor.recIdx == c.recIdx + 1
    ensures r.hasRow <==> c.recIdx + 1 < |c.frame.data|
    ensures r.hasRow ==> r.cursor.recordData == Some(c.frame.data[c.recIdx + 1])
    ensures !r.hasRow ==> r.cursor.recordData == c.recordData
    ensures r.cursor.frame == c.frame && r.cursor.closed == c.closed && r.cursor.statement == c.statement
      && r.cursor.tableName == c.tableName
    ensures Consistent(c) ==> Consistent(r.cursor)
  {
    var idx := c.recIdx + 1;
    if idx >= |c.frame.data| then Advance(c.(recIdx := idx), false)
    else Advance(c.(recIdx := idx, recordData := Some(c.frame.data[idx])), true)
  }

  /** Closing does not stop the cursor: `next` on a closed cursor moves and
      answers as on an open one. */
  lemma NextIgnoresClosed(c: Cursor)
    ensures Next(Close(c)).hasRow == Next(c).hasRow
    ensures Next(Close(c)).cursor == Close(Next(c).cursor)
  {
  }

  /** The state after `k` calls of `next`. */
  function Run(c: Cursor, k: nat): Cursor
    decreases k
  {
    if k == 0 then c else Run(Next(c).cursor, k - 1)
  }

  lemma {:induction false} RunMoves(c: Cursor, k: nat)
    ensures Run(c, k).recIdx == c.recIdx + k
    ensures Run(c, k).frame == c.frame && Run(c, k).closed == c.closed
    ensures Consistent(c) ==> Consistent(Run(c, k))
    decreases k
  {
    if k > 0 {
      RunMoves(Next(c).cursor, k - 1);
    }
  }

  /** Once `next` has answered false, every later call answers false. */
  lemma ExhaustedStaysExhausted(c: Cursor, k: nat)
    requires !Next(c).hasRow
    ensures !Next(Run(Next(c).cursor, k)).hasRow
  {
    RunMoves(Next(c).cursor, k);
  }

  /** From a fresh cursor, call `k + 1` of `next` answers true exactly when the
      frame has more than `k` rows, and then the current record is row `k`. */
  lemma WalkVisitsRows(statement: Option<nat>, frame: Frame, tableName: string, k: nat)
    ensures var c := Run(Open(statement, frame, tableName), k);
      && (Next(c).hasRow <==> k < |frame.data|)
      && (k < |frame.data| ==> Next(c).cursor.recordData == Some(frame.data[k]))
  {
    RunMoves(Open(statement, frame, tableName), k);
  }

  /** isFirst. */
  function IsFirst(c: Cursor): (r: bool)
    ensures r && Consistent(c) && 0 < |c.frame.data| ==> c.recordData == Some(c.frame.data[0])
    ensures r ==> Run(Open(c.statement, c.frame, c.tableName), 1).recIdx == c.recIdx
  {
    c.recIdx == 0
  }

  /** isLast: the index is the last row's, which on an empty frame holds
      before any `next`. */
  function IsLast(c: Cursor): (r: bool)
    ensures c.recIdx < |c.frame.data| ==> (r <==> !Next(c).hasRow)
    ensures r && Consistent(c) && 0 < |c.frame.data| ==> c.recordData == Some(c.frame.data[|c.frame.data| - 1])
  {
    c.recIdx == |c.frame.data| - 1
  }

  /** After `k` calls of `next` from a fresh cursor, the cursor is first
      exactly after one call and last exactly after as many calls as there
      are rows; so an empty frame is "last" before the first call. */
  lemma FirstAndLast(statement: Option<nat>, frame: Frame, tableName: string, k: nat)
    ensures IsFirst(Run(Open(statement, frame, tableName), k)) <==> k == 1
    ensures IsLast(Run(Open(statement, frame, tableName), k)) <==> k == |frame.data|
  {
    RunMoves(Open(statement, frame, tableName), k);
  }

  /** The first column equal to `name` ignoring case. */
  function FirstMatch(columns: seq<string>, name: string): (r: Option<nat>)
    ensures r.Some? ==> r.value < |columns| && EqualsIgnoreCase(columns[r.value], name)
    ensures r.Some? ==> forall j :: 0 <= j < r.value ==> !EqualsIgnoreCase(columns[j], name)
    ensures r.None? ==> forall j :: 0 <= j < |columns| ==> !EqualsIgnoreCase(columns[j], name)
    decreases |columns|
  {
    if |columns| == 0 then None
    else if EqualsIgnoreCase(columns[0], name) then Some(0)
    else match FirstMatch(columns[1..], name)
      case Some(k) => Some(k + 1)
      case None => None
  }

  /** findColumn: the 1-based position of the first column equal to the name
      ignoring case, or an error naming the column. */
  method FindColumn(c: Cursor, name: string) returns (r: Result<nat, Error>)
    ensures r.Success? ==> 1 <= r.value <= |c.frame.columns|
    ensures r.Success? ==> EqualsIgnoreCase(c.frame.columns[r.value - 1], name)
    ensures r.Success? ==> forall j :: 0 <= j < r.value - 1 ==> !EqualsIgnoreCase(c.frame.columns[j], name)
    ensures r.Failure? ==> r.error == MissingColumn(name)
    ensures r.Failure? <==> forall j :: 0 <= j < |c.frame.columns| ==> !EqualsIgnoreCase(c.frame.columns[j], name)
    ensures r == match FirstMatch(c.frame.columns, name)
                 case Some(k) => Success(k + 1)
                 case None => Failure(MissingColumn(name))
  {
    var columns := c.frame.columns;
    var i := 0;
    while i < |columns|
      invariant 0 <= i <= |columns|
      invariant forall j :: 0 <= j < i ==> !EqualsIgnoreCase(columns[j], name)
    {
      if EqualsIgnoreCase(columns[i], name) {
        FirstMatchIs(columns, name, i);
        return Success(i + 1);
      }
      i := i + 1;
    }
    FirstMatchNone(columns, name);
    return Failure(MissingColumn(name));
  }

  lemma FirstMatchIs(columns: seq<string>, name: string, i: nat)
    requires i < |columns| && EqualsIgnoreCase(columns[i], name)
    requires forall j :: 0 <= j < i ==> !EqualsIgnoreCase(columns[j], name)
    ensures FirstMatch(columns, name) == Some(i)
  {
  }

  lemma FirstMatchNone(columns: seq<string>, name: string)
    requires forall j :: 0 <= j < |columns| ==> !EqualsIgnoreCase(columns[j], name)
    ensures FirstMatch(columns, name) == None
  {
  }

  /** getColumnIndex: an alias is looked up first, exactly, and resolves to
      the position of its column; any other label is looked up exactly among
      the column names. Positions are 1-based. */
  function ColumnIndex(frame: Frame, columnLabel: string): (r: Result<nat, Error>)
    ensures r.Success? ==> 1 <= r.value <= |frame.columns|
    ensures columnLabel in frame.aliasMapping ==>
      (r.Success? <==> frame.aliasMapping[columnLabel] in frame.columns)
    ensures columnLabel in frame.aliasMapping && r.Success? ==> frame.columns[r.value - 1] == frame.aliasMapping[columnLabel]
    ensures columnLabel !in frame.aliasMapping ==> (r.Success? <==> columnLabel in frame.columns)
    ensures columnLabel !in frame.aliasMapping && r.Success? ==> frame.columns[r.value - 1] == columnLabel
    ensures columnLabel !in frame.aliasMapping && r.Failure? ==> r.error == MissingColumn(columnLabel)
  {
    if |frame.aliasMapping| > 0 && columnLabel in frame.aliasMapping then
      match ColumnPosition(frame.columns, frame.aliasMapping[columnLabel])
      case Some(p) => Success(p + 1)
      case None => Failure(UnresolvedAliasTarget(columnLabel))
    else
      match ColumnPosition(frame.columns, columnLabel)
      case Some(p) => Success(p + 1)
      case None => Failure(MissingColumn(columnLabel))
  }

  /** An alias and the column it names give the same index, unless the
      column name is itself an alias. */
  lemma AliasResolvesToColumn(frame: Frame, alias: string)
    requires alias in frame.aliasMapping && frame.aliasMapping[alias] !in frame.aliasMapping
    ensures ColumnIndex(frame, alias) == match ColumnIndex(frame, frame.aliasMapping[alias])
      case Success(i) => Success(i)
      case Failure(_) => Failure(UnresolvedAliasTarget(alias))
  {
  }

  /** With column names that differ even ignoring case and no alias in the
      way, the exact lookup and findColumn agree on every column name. */
  lemma ColumnIndexMatchesFindColumn(frame: Frame, k: nat)
    requires k < |frame.columns|
    requires forall i, j :: 0 <= i < j < |frame.columns| ==> !EqualsIgnoreCase(frame.columns[i], frame.columns[j])
    requires frame.columns[k] !in frame.aliasMapping
    ensures FirstMatch(frame.columns, frame.columns[k]) == Some(k)
    ensures ColumnIndex(frame, frame.columns[k]) == Success(k + 1)
  {
    var cols := frame.columns;
    assert EqualsIgnoreCase(cols[k], cols[k]);
    forall j | 0 <= j < k
      ensures !EqualsIgnoreCase(cols[j], cols[k])
    {
    }
    FirstMatchIs(cols, cols[k], k);
    forall i, j | 0 <= i < j < |cols|
      ensures cols[i] != cols[j]
    {
      if cols[i] == cols[j] {
        assert EqualsIgnoreCase(cols[i], cols[j]);
      }
    }
    PositionOfDistinct(cols, k);
  }

  /** The cell at a 1-based index of the current record: with no record yet
      the array is null; an index past the record's length is reported; an
      index below 1 falls outside the array. */
  function CellAt(c: Cursor, index: int): (r: Result<Value, Error>)
    ensures r.Success? <==> c.recordData.Some? && 1 <= index <= |c.recordData.value|
    ensures r.Success? ==> r.value == c.recordData.value[index - 1]
    ensures c.recordData.None? ==> r == Failure(NoCurrentRow)
    ensures c.recordData.Some? && index > |c.recordData.value| ==> r == Failure(MissingIndex(index))
    ensures c.recordData.Some? && index < 1 ==> r == Failure(IndexOutOfBounds(index))
  {
    if c.recordData.None? then Failure(NoCurrentRow)
    else if index > |c.recordData.value| then Failure(MissingIndex(index))
    else if index < 1 then Failure(IndexOutOfBounds(index))
    else Success(c.recordData.value[index - 1])
  }

  /** The outcome of parsing a present cell's text into lo..hi: its value
      exactly when the text is a numeral in range, a number-format error
      naming the text otherwise. */
  predicate ReadsNumber(text: string, lo: int, hi: int, r: Result<int, Error>) {
    && (r.Success? <==> IsNumeral(text) && lo <= NumeralValue(text) <= hi)
    && (r.Success? ==> r.value == NumeralValue(text))
    && (r.Failure? ==> r.error == BadNumber(text))
  }

  /** The shared body of the integral getters: null is 0, anything else is
      its text parsed into the range lo..hi. */
  function GetIntegral(c: Cursor, index: int, lo: int, hi: int): (r: Result<int, Error>)
    requires lo <= 0 <= hi
    ensures r.Success? ==> lo <= r.value <= hi
    ensures CellAt(c, index).Failure? ==> r == Failure(CellAt(c, index).error)
    ensures CellAt(c, index) == Success(Null) ==> r == Success(0)
    ensures CellAt(c, index).Success? && !CellAt(c, index).value.Null? ==>
      ReadsNumber(CellText(CellAt(c, index).value), lo, hi, r)
  {
    var v :- CellAt(c, index);
    if v.Null? then Success(0)
    else match ParseIntegral(CellText(v), lo, hi)
      case Some(n) => Success(n)
      case None => Failure(BadNumber(CellText(v)))
  }

  function GetByte(c: Cursor, index: int): (r: Result<int, Error>)
    ensures r.Success? ==> ByteMin <= r.value <= ByteMax
    ensures CellAt(c, index) == Success(Null) ==> r == Success(0)
    ensures CellAt(c, index).Failure? ==> r == Failure(CellAt(c, index).error)
    ensures CellAt(c, index).Success? && !CellAt(c, index).value.Null? ==>
      ReadsNumber(CellText(CellAt(c, index).value), ByteMin, ByteMax, r)
  {
    GetIntegral(c, index, ByteMin, ByteMax)
  }

  function GetShort(c: Cursor, index: int): (r: Result<int, Error>)
    ensures r.Success? ==> ShortMin <= r.value <= ShortMax
    ensures CellAt(c, index) == Success(Null) ==> r == Success(0)
    ensures CellAt(c, index).Failure? ==> r == Failure(CellAt(c, index).error)
    ensures CellAt(c, index).Success? && !CellAt(c, index).value.Null? ==>
      ReadsNumber(CellText(CellAt(c, index).value), ShortMin, ShortMax, r)
  {
    GetIntegral(c, index, ShortMin, ShortMax)
  }

  function GetInt(c: Cursor, index: int): (r: Result<int, Error>)
    ensures r.Success? ==> IntMin <= r.value <= IntMax
    ensures CellAt(c, index) == Success(Null) ==> r == Success(0)
    ensures CellAt(c, index).Failure? ==> r == Failure(CellAt(c, index).error)
    ensures CellAt(c, index).Success? && !CellAt(c, index).value.Null? ==>
      ReadsNumber(CellText(CellAt(c, index).value), IntMin, IntMax, r)
  {
    GetIntegral(c, index, IntMin, IntMax)
  }

  function GetLong(c: Cursor, index: int): (r: Result<int, Error>)
    ensures r.Success? ==> LongMin <= r.value <= LongMax
    ensures CellAt(c, index) == Success(Null) ==> r == Success(0)
    ensures CellAt(c, index).Failure? ==> r == Failure(CellAt(c, index).error)
    ensures CellAt(c, index).Success? && !CellAt(c, index).value.Null? ==>
      ReadsNumber(CellText(CellAt(c, index).value), LongMin, LongMax, r)
  {
    GetIntegral(c, index, LongMin, LongMax)
  }

  /** A numeric cell reads back as its value whenever the value fits the
      getter's range, and is a number-format error when it does not. */
  lemma IntegralRoundTrip(c: Cursor, index: int, lo: int, hi: int, n: int)
    requires lo <= 0 <= hi
    requires CellAt(c, index) == Success(Int(n)) || CellAt(c, index) == Success(Long(n))
             || CellAt(c, index) == Success(Str(Show(n)))
    ensures lo <= n <= hi ==> GetIntegral(c, index, lo, hi) == Success(n)
    ensures (n < lo || hi < n) ==> GetIntegral(c, index, lo, hi) == Failure(BadNumber(Show(n)))
  {
    if lo <= n <= hi {
      ParseShow(n, lo, hi);
    } else {
      ParseShowOutOfRange(n, lo, hi);
    }
  }

  /** getBoolean: null is false; anything else is true exactly when its
      text is "true" ignoring case. It never fails on a present cell. */
  function GetBoolean(c: Cursor, index: int): (r: Result<bool, Error>)
    ensures r.Success? <==> CellAt(c, index).Success?
    ensures CellAt(c, index).Failure? ==> r == Failure(CellAt(c, index).error)
    ensures r.Success? ==> (r.value <==>
      !CellAt(c, index).value.Null? && EqualsIgnoreCase(CellText(CellAt(c, index).value), "true"))
  {
    var v :- CellAt(c, index);
    Success(if v.Null? then false else EqualsIgnoreCase(CellText(v), "true"))
  }

  /** A boolean cell reads back as itself; a numeric cell reads as false. */
  lemma BooleanRoundTrip(c: Cursor, index: int)
    requires CellAt(c, index).Success?
    ensures CellAt(c, index).value.Bool? ==> GetBoolean(c, index) == Success(CellAt(c, index).value.b)
    ensures CellAt(c, index).value.Int? || CellAt(c, index).value.Long? ==> GetBoolean(c, index) == Success(false)
  {
    var v := CellAt(c, index).value;
    if v.Bool? && !v.b {
      assert !EqualsIgnoreCase("false", "true");
    }
    if v.Int? || v.Long? {
      ShowIsNotTrue(v.n);
    }
  }

  /** No decimal rendering reads as "true". */
  lemma ShowIsNotTrue(n: int)
    ensures !EqualsIgnoreCase(Show(n), "true")
  {
    var s := Show(n);
    if |s| == 4 {
      if n < 0 {
        assert s[0] == '-';
      } else {
        assert IsDigit(s[0]);
      }
      assert Lower(s[0]) != Lower("true"[0]);
    }
  }

  /** getString: null for a null cell, the cell's text otherwise. */
  function GetString(c: Cursor, index: int): (r: Result<Option<string>, Error>)
    ensures r.Success? <==> CellAt(c, index).Success?
    ensures r.Success? ==> (r.value.None? <==> CellAt(c, index).value.Null?)
    ensures r.Success? && r.value.Some? ==> r.value.value == CellText(CellAt(c, index).value)
  {
    var v :- CellAt(c, index);
    Success(if v.Null? then None else Some(CellText(v)))
  }

  /** A string cell reads back as itself, and a numeric cell's string is
      its decimal rendering, which the integral getters parse back. */
  lemma StringRoundTrip(c: Cursor, index: int)
    requires CellAt(c, index).Success?
    ensures CellAt(c, index).value.Str? ==> GetString(c, index) == Success(Some(CellAt(c, index).value.s))
    ensures CellAt(c, index).value.Long? ==>
      GetString(c, index) == Success(Some(Show(CellAt(c, index).value.n)))
      && (LongMin <= CellAt(c, index).value.n <= LongMax ==> GetLong(c, index) == Success(CellAt(c, index).value.n))
  {
    var v := CellAt(c, index).value;
    if v.Long? {
      IntegralRoundTrip(c, index, LongMin, LongMax, v.n);
    }
  }

  /** getObject: the cell itself. */
  function GetObject(c: Cursor, index: int): (r: Result<Value, Error>)
    ensures r.Success? <==> c.recordData.Some? && 1 <= index <= |c.recordData.value|
    ensures r.Success? ==> r.value == c.recordData.value[index - 1]
  {
    CellAt(c, index)
  }

  /** The by-columnLabel getters resolve the columnLabel with getColumnIndex first, so a
      bad columnLabel is reported before a missing record. */
  function ByLabel<T>(c: Cursor, columnLabel: string, get: (Cursor, int) -> Result<T, Error>): (r: Result<T, Error>)
    ensures ColumnIndex(c.frame, columnLabel).Failure? ==> r == Failure(ColumnIndex(c.frame, columnLabel).error)
    ensures ColumnIndex(c.frame, columnLabel).Success? ==> r == get(c, ColumnIndex(c.frame, columnLabel).value)
  {
    var i :- ColumnIndex(c.frame, columnLabel);
    get(c, i)
  }

  function GetLongByLabel(c: Cursor, columnLabel: string): (r: Result<int, Error>)
    ensures ColumnIndex(c.frame, columnLabel).Failure? ==> r == Failure(ColumnIndex(c.frame, columnLabel).error)
    ensures ColumnIndex(c.frame, columnLabel).Success? ==> r == GetLong(c, ColumnIndex(c.frame, columnLabel).value)
  {
    ByLabel(c, columnLabel, GetLong)
  }

  function GetIntByLabel(c: Cursor, columnLabel: string): (r: Result<int, Error>)
    ensures ColumnIndex(c.frame, columnLabel).Failure? ==> r == Failure(ColumnIndex(c.frame, columnLabel).error)
    ensures ColumnIndex(c.frame, columnLabel).Success? ==> r == GetInt(c, ColumnIndex(c.frame, columnLabel).value)
  {
    ByLabel(c, columnLabel, GetInt)
  }

  function GetShortByLabel(c: Cursor, columnLabel: string): (r: Result<int, Error>)
    ensures ColumnIndex(c.frame, columnLabel).Failure? ==> r == Failure(ColumnIndex(c.frame, columnLabel).error)
    ensures ColumnIndex(c.frame, columnLabel).Success? ==> r == GetShort(c, ColumnIndex(c.frame, columnLabel).value)
  {
    ByLabel(c, columnLabel, GetShort)
  }

  function GetByteByLabel(c: Cursor, columnLabel: string): (r: Result<int, Error>)
    ensures ColumnIndex(c.frame, columnLabel).Failure? ==> r == Failure(ColumnIndex(c.frame, columnLabel).error)
    ensures ColumnIndex(c.frame, columnLabel).Success? ==> r == GetByte(c, ColumnIndex(c.frame, columnLabel).value)
  {
    ByLabel(c, columnLabel, GetByte)
  }

  function GetBooleanByLabel(c: Cursor, columnLabel: string): (r: Result<bool, Error>)
    ensures ColumnIndex(c.frame, columnLabel).Failure? ==> r == Failure(ColumnIndex(c.frame, columnLabel).error)
    ensures ColumnIndex(c.frame, columnLabel).Success? ==> r == GetBoolean(c, ColumnIndex(c.frame, columnLabel).value)
  {
    ByLabel(c, columnLabel, GetBoolean)
  }

  function GetStringByLabel(c: Cursor, columnLabel: string): (r: Result<Option<string>, Error>)
    ensures ColumnIndex(c.frame, columnLabel).Failure? ==> r == Failure(ColumnIndex(c.frame, columnLabel).error)
    ensures ColumnIndex(c.frame, columnLabel).Success? ==> r == GetString(c, ColumnIndex(c.frame, columnLabel).value)
  {
    ByLabel(c, columnLabel, GetString)
  }

  function GetObjectByLabel(c: Cursor, columnLabel: string): (r: Result<Value, Error>)
    ensures ColumnIndex(c.frame, columnLabel).Failure? ==> r == Failure(ColumnIndex(c.frame, columnLabel).error)
    ensures ColumnIndex(c.frame, columnLabel).Success? ==> r == GetObject(c, ColumnIndex(c.frame, columnLabel).value)
  {
    ByLabel(c, columnLabel, GetObject)
  }

  /** Reading through an alias reads the aliased column's cell. */
  lemma ReadThroughAlias(c: Cursor, alias: string, p: nat)
    requires alias in c.frame.aliasMapping
    requires ColumnPosition(c.frame.columns, c.frame.aliasMapping[alias]) == Some(p)
    ensures GetObjectByLabel(c, alias) == GetObject(c, p + 1)
    ensures GetLongByLabel(c, alias) == GetLong(c, p + 1)
    ensures GetStringByLabel(c, alias) == GetString(c, p + 1)
  {
  }

  /** Reading by a label that is a column name and not an alias reads the
      cell at that column's position. */
  lemma ReadByName(c: Cursor, name: string, p: nat)
    requires name !in c.frame.aliasMapping
    requires ColumnPosition(c.frame.columns, name) == Some(p)
    ensures GetObjectByLabel(c, name) == GetObject(c, p + 1)
    ensures GetLongByLabel(c, name) == GetLong(c, p + 1)
    ensures GetStringByLabel(c, name) == GetString(c, p + 1)
  {
  }
}

=== FILE: text.dfy ===
/** Character-level helpers shared by the translator and the cursor: the case
    folding behind String.equalsIgnoreCase, and the removal of quote
    characters from filter literals. */
module Text {

  /** Lower-case image of an ASCII letter; every other character is its own image. */
  function Lower(c: char): char {
    if 'A' <= c <= 'Z' then (c as int + 32) as char else c
  }

  function LowerString(s: string): (r: string)
    ensures |r| == |s|
    ensures forall i :: 0 <= i < |s| ==> r[i] == Lower(s[i])
  {
    seq(|s|, i requires 0 <= i < |s| => Lower(s[i]))
  }

  /** String.equalsIgnoreCase over ASCII letters. */
  function EqualsIgnoreCase(a: string, b: string): (r: bool)
    ensures r <==> LowerString(a) == LowerString(b)
    ensures a == b ==> r
  {
    |a| == |b| && forall i :: 0 <= i < |a| ==> Lower(a[i]) == Lower(b[i])
  }

  /** The comparison is an equivalence: reflexive, symmetric and transitive. */
  lemma EqualsIgnoreCaseIsEquivalence(a: string, b: string, c: string)
    ensures EqualsIgnoreCase(a, a)
    ensures EqualsIgnoreCase(a, b) ==> EqualsIgnoreCase(b, a)
    ensures EqualsIgnoreCase(a, b) && EqualsIgnoreCase(b, c) ==> EqualsIgnoreCase(a, c)
  {
  }

  /** String.replace("'", ""): every apostrophe is removed, wherever it stands. */
  function StripQuotes(s: string): (r: string)
    ensures '\'' !in r
    ensures |r| <= |s|
    ensures '\'' !in s ==> r == s
    ensures forall c :: c in r ==> c in s
    decreases |s|
  {
    if |s| == 0 then ""
    else if s[0] == '\'' then StripQuotes(s[1..])
    else [s[0]] + StripQuotes(s[1..])
  }

  /** Stripping distributes over concatenation. */
  lemma {:induction false} StripQuotesAppend(a: string, b: string)
    ensures StripQuotes(a + b) == StripQuotes(a) + StripQuotes(b)
    decreases |a|
  {
    if |a| == 0 {
      assert a + b == b;
    } else {
      assert (a + b)[0] == a[0];
      assert (a + b)[1..] == a[1..] + b;
      StripQuotesAppend(a[1..], b);
    }
  }

  /** A literal written between single quotes is recovered unchanged, provided
      it holds no quote of its own. */
  lemma StripSurroundingQuotes(s: string)
    requires '\'' !in s
    ensures StripQuotes("'" + s + "'") == s
  {
    StripQuotesAppend("'" + s, "'");
    StripQuotesAppend("'", s);
  }

  /** Removing quotes twice is the same as removing them once. */
  lemma StripQuotesIdempotent(s: string)
    ensures StripQuotes(StripQuotes(s)) == StripQuotes(s)
  {
  }
}

=== FILE: translator.dfy ===
/** The part of APIConverter that turns the FROM and WHERE clauses into
    ledger fetches: the table check, the full scan, the whitelist resolution
    of a filter column, the single fetch of a filter item, and the recursive
    evaluation of AND/OR nodes. */
module Translator {

  import opened Wrappers
  import opened Errors
  import opened Text
  import opened Decimal
  import opened Hex
  import opened Ledger
  import opened Combine
  import opened Plan

  /** The only table the driver knows. */
  const TableName: string := "block"

  /** The filterable columns, in the order the driver tries them. */
  const FilterableColumns: seq<string> := ["blockNo", "previousHash", "transactionId"]

  /** A column usable in a filter: one of the three names, ignoring case. */
  predicate IsFilterable(name: string) {
    EqualsIgnoreCase("blockNo", name) || EqualsIgnoreCase("previousHash", name)
      || EqualsIgnoreCase("transactionId", name)
  }

  /** The driver's search loop over a list of column names. */
  function AnyMatch(cols: seq<string>, name: string): (r: bool)
    ensures r <==> exists i :: 0 <= i < |cols| && EqualsIgnoreCase(cols[i], name)
    decreases |cols|
  {
    if |cols| == 0 then false
    else if EqualsIgnoreCase(cols[0], name) then true
    else
      assert forall i :: 0 < i < |cols| ==> cols[i] == cols[1..][i - 1];
      AnyMatch(cols[1..], name)
  }

  /** Searching the whitelist is testing filterability. */
  lemma WhitelistSearch(name: string)
    ensures AnyMatch(FilterableColumns, name) <==> IsFilterable(name)
  {
    assert FilterableColumns[0] == "blockNo";
    assert FilterableColumns[1] == "previousHash";
    assert FilterableColumns[2] == "transactionId";
  }

  /** The column a filter item is resolved to: the item's own spelling when it
      is whitelisted, otherwise the alias's target when that is whitelisted,
      otherwise a "not filterable" error. An item without a column resolves to
      the empty name. */
  function ResolveFilterColumn(item: FilterItem, aliases: map<string, string>): (r: Result<string, Error>)
    ensures item.column.None? ==> r == Success("")
    ensures r.Success? && item.column.Some? ==> IsFilterable(r.value)
    ensures item.column.Some? && IsFilterable(item.column.value) ==> r == Success(item.column.value)
    ensures item.column.Some? && !IsFilterable(item.column.value) ==>
      (r.Success? <==> item.column.value in aliases && IsFilterable(aliases[item.column.value]))
    ensures item.column.Some? && !IsFilterable(item.column.value) && r.Success? ==>
      r.value == aliases[item.column.value]
    ensures r.Failure? ==> item.column.Some? && r.error == NotFilterable(item.column.value)
  {
    match item.column
    case None => Success("")
    case Some(col) =>
      WhitelistSearch(col);
      if AnyMatch(FilterableColumns, col) then Success(col)
      else if col in aliases && (WhitelistSearch(aliases[col]); AnyMatch(FilterableColumns, aliases[col])) then
        Success(aliases[col])
      else Failure(NotFilterable(col))
  }

  /** The one ledger query a filter item turns into. */
  datatype Fetch = ByNumber(number: int) | ByHash(hash: seq<byte>) | ByTransactionId(id: string)

  /** The fetch for a resolved filter column and the literal: a block-number
      column parses the raw literal as a long, a previous-hash column decodes
      the unquoted literal as hex, and any other name asks for the transaction
      id given by the unquoted literal. */
  function PlanFetch(filterColumn: string, literal: string): (r: Result<Fetch, Error>)
    ensures EqualsIgnoreCase("blockNo", filterColumn) ==>
      match ParseIntegral(literal, LongMin, LongMax)
      case Some(n) => r == Success(ByNumber(n))
      case None => r == Failure(BadNumber(literal))
    ensures !EqualsIgnoreCase("blockNo", filterColumn) && EqualsIgnoreCase("previousHash", filterColumn) ==>
      match Decode(StripQuotes(literal))
      case Some(h) => r == Success(ByHash(h)) && Encode(h) == LowerString(StripQuotes(literal))
      case None => r == Failure(BadHex(StripQuotes(literal)))
    ensures !EqualsIgnoreCase("blockNo", filterColumn) && !EqualsIgnoreCase("previousHash", filterColumn) ==>
      r == Success(ByTransactionId(StripQuotes(literal))) && '\'' !in r.value.id
  {
    if EqualsIgnoreCase("blockNo", filterColumn) then
      match ParseIntegral(literal, LongMin, LongMax)
      case Some(n) => Success(ByNumber(n))
      case None => Failure(BadNumber(literal))
    else if EqualsIgnoreCase("previousHash", filterColumn) then
      var text := StripQuotes(literal);
      match Decode(text)
      case Some(h) => EncodeDecode(text); Success(ByHash(h))
      case None => Failure(BadHex(text))
    else
      Success(ByTransactionId(StripQuotes(literal)))
  }

  /** Asks the channel for the block a fetch names. */
  function Issue(ch: Channel, f: Fetch): (r: Result<BlockInfo, Error>)
    ensures f.ByNumber? ==> (r.Success? <==> ch.byNumber(f.number).Success?)
    ensures f.ByHash? ==> (r.Success? <==> ch.byHash(f.hash).Success?)
    ensures f.ByTransactionId? ==> (r.Success? <==> ch.byTransactionId(f.id).Success?)
    ensures r.Success? ==> match f
      case ByNumber(n) => ch.byNumber(n) == Success(r.value)
      case ByHash(h) => ch.byHash(h) == Success(r.value)
      case ByTransactionId(id) => ch.byTransactionId(id) == Success(r.value)
    ensures f.ByNumber? && ch.byNumber(f.number).Failure? ==> r == Failure(LedgerFailure(ch.byNumber(f.number).error))
    ensures f.ByHash? && ch.byHash(f.hash).Failure? ==> r == Failure(LedgerFailure(ch.byHash(f.hash).error))
    ensures f.ByTransactionId? && ch.byTransactionId(f.id).Failure? ==>
      r == Failure(LedgerFailure(ch.byTransactionId(f.id).error))
  {
    match f
    case ByNumber(n) => Lift(ch.byNumber(n))
    case ByHash(h) => Lift(ch.byHash(h))
    case ByTransactionId(id) => Lift(ch.byTransactionId(id))
  }

  /** A single filter item: resolve its column, plan the fetch, issue it. */
  function ExecuteSingle(item: FilterItem, aliases: map<string, string>, ch: Channel): (r: Result<seq<BlockInfo>, Error>)
    ensures r.Success? ==> |r.value| == 1
    ensures ResolveFilterColumn(item, aliases).Failure? ==> r == Failure(ResolveFilterColumn(item, aliases).error)
    ensures ResolveFilterColumn(item, aliases).Success? && PlanFetch(ResolveFilterColumn(item, aliases).value, item.literal).Failure? ==>
      r == Failure(PlanFetch(ResolveFilterColumn(item, aliases).value, item.literal).error)
    ensures r.Success? ==> (ResolveFilterColumn(item, aliases).Success?
      && PlanFetch(ResolveFilterColumn(item, aliases).value, item.literal).Success?
      && Issue(ch, PlanFetch(ResolveFilterColumn(item, aliases).value, item.literal).value) == Success(r.value[0]))
    ensures ResolveFilterColumn(item, aliases).Success? && PlanFetch(ResolveFilterColumn(item, aliases).value, item.literal).Success? ==>
      var fetch := PlanFetch(ResolveFilterColumn(item, aliases).value, item.literal).value;
      && (r.Success? <==> Issue(ch, fetch).Success?)
      && (r.Failure? ==> r.error == Issue(ch, fetch).error)
  {
    var column :- ResolveFilterColumn(item, aliases);
    var fetch :- PlanFetch(column, item.literal);
    var block :- Issue(ch, fetch);
    Success([block])
  }

  /** The WHERE tree: a filter item is one fetch; a logical operation needs
      exactly two operands, evaluates the first and then the second, and
      combines them by previous-hash key. */
  function ExecuteWhere(f: Filter, aliases: map<string, string>, ch: Channel): (r: Result<seq<BlockInfo>, Error>)
    ensures r.Success? && f.Leaf? ==> |r.value| == 1
    ensures r.Success? && f.Op? ==> |f.children| == 2
    ensures f.Op? && |f.children| != 2 ==> r == Failure(MalformedLogicalOperation(|f.children|))
    ensures r.Success? ==> KeysDistinct(r.value)
    decreases f
  {
    match f
    case Leaf(item) => ExecuteSingle(item, aliases, ch)
    case Op(isAnd, children) =>
      if |children| != 2 then Failure(MalformedLogicalOperation(|children|))
      else
        var first :- ExecuteWhere(children[0], aliases, ch);
        var second :- ExecuteWhere(children[1], aliases, ch);
        OrKeepsDistinct(first, second);
        Success(if isAnd then And(first, second) else Or(first, second))
  }

  /** An independent reading of the WHERE tree as set algebra over keys: a
      filter item denotes the key of its block, AND intersects, OR unites. */
  function KeyDenotation(f: Filter, aliases: map<string, string>, ch: Channel): Result<set<string>, Error>
    decreases f
  {
    match f
    case Leaf(item) =>
      var blocks :- ExecuteSingle(item, aliases, ch);
      Success({Key(blocks[0])})
    case Op(isAnd, children) =>
      if |children| != 2 then Failure(MalformedLogicalOperation(|children|))
      else
        var a :- KeyDenotation(children[0], aliases, ch);
        var b :- KeyDenotation(children[1], aliases, ch);
        Success(if isAnd then a * b else a + b)
  }

  function KeysOfResult(r: Result<seq<BlockInfo>, Error>): Result<set<string>, Error> {
    match r
    case Success(bs) => Success(KeySet(bs))
    case Failure(e) => Failure(e)
  }

  lemma SingletonKeys(bs: seq<BlockInfo>)
    requires |bs| == 1
    ensures KeySet(bs) == {Key(bs[0])}
  {
    assert bs == [bs[0]];
  }

  lemma LeafKeys(item: FilterItem, aliases: map<string, string>, ch: Channel)
    ensures KeysOfResult(ExecuteWhere(Leaf(item), aliases, ch)) == KeyDenotation(Leaf(item), aliases, ch)
  {
    var r := ExecuteSingle(item, aliases, ch);
    if r.Success? {
      SingletonKeys(r.value);
    }
  }

  lemma CombineKeys(isAnd: bool, a: seq<BlockInfo>, b: seq<BlockInfo>)
    ensures KeySet(if isAnd then And(a, b) else Or(a, b))
         == if isAnd then KeySet(a) * KeySet(b) else KeySet(a) + KeySet(b)
  {
    if !isAnd {
      OrKeys(a, b);
    }
  }

  /** Evaluating the tree and then taking keys is the set-algebra reading:
      the same error when it fails, the same key set when it succeeds. */
  lemma {:induction false} ExecuteWhereKeys(f: Filter, aliases: map<string, string>, ch: Channel)
    ensures KeysOfResult(ExecuteWhere(f, aliases, ch)) == KeyDenotation(f, aliases, ch)
    decreases f
  {
    match f
    case Leaf(item) =>
      LeafKeys(item, aliases, ch);
    case Op(isAnd, children) =>
      if |children| == 2 {
        ExecuteWhereKeys(children[0], aliases, ch);
        ExecuteWhereKeys(children[1], aliases, ch);
        var r0 := ExecuteWhere(children[0], aliases, ch);
        var r1 := ExecuteWhere(children[1], aliases, ch);
        if r0.Success? && r1.Success? {
          CombineKeys(isAnd, r0.value, r1.value);
        }
      }
  }

  /** The full scan below the ledger height: blocks from..height-1, ascending;
      the first failing fetch ends the scan with its error. */
  function Scan(ch: Channel, from: int, height: int): (r: Result<seq<BlockInfo>, Error>)
    ensures r.Success? <==> forall n :: from <= n < height ==> ch.byNumber(n).Success?
    ensures r.Success? ==> |r.value| == (if from < height then height - from else 0)
    ensures r.Success? ==> forall k :: 0 <= k < |r.value| ==> ch.byNumber(from + k) == Success(r.value[k])
    ensures forall n ::
      (from <= n < height && ch.byNumber(n).Failure? && forall m :: from <= m < n ==> ch.byNumber(m).Success?)
      ==> r == Failure(LedgerFailure(ch.byNumber(n).error))
    decreases height - from
  {
    if from >= height then Success([])
    else
      var block :- Lift(ch.byNumber(from));
      var rest :- Scan(ch, from + 1, height);
      Success([block] + rest)
  }

  /** With no WHERE clause: ask the height, then fetch blocks 1..height-1. */
  function FullScan(ch: Channel): (r: Result<seq<BlockInfo>, Error>)
    ensures ch.height.Failure? ==> r == Failure(LedgerFailure(ch.height.error))
    ensures ch.height.Success? ==> (r.Success? <==> forall n :: 1 <= n < ch.height.value ==> ch.byNumber(n).Success?)
    ensures ch.height.Success? && r.Success? ==>
      |r.value| == (if ch.height.value > 1 then ch.height.value - 1 else 0)
      && forall k :: 0 <= k < |r.value| ==> ch.byNumber(k + 1) == Success(r.value[k])
    ensures ch.height.Success? ==> forall n ::
      (1 <= n < ch.height.value && ch.byNumber(n).Failure? && forall m :: 1 <= m < n ==> ch.byNumber(m).Success?)
      ==> r == Failure(LedgerFailure(ch.byNumber(n).error))
  {
    var height :- Lift(ch.height);
    Scan(ch, 1, height)
  }

  /** getFromTable: a table other than `block` (ignoring case) is rejected
      before any fetch; otherwise the WHERE tree, or the full scan. */
  function GetFromTable(table: string, where: Option<Filter>, aliases: map<string, string>, ch: Channel)
    : (r: Result<seq<BlockInfo>, Error>)
    ensures !EqualsIgnoreCase(TableName, table) ==> r == Failure(UnidentifiedTable(table))
    ensures EqualsIgnoreCase(TableName, table) && where.None? ==> r == FullScan(ch)
    ensures EqualsIgnoreCase(TableName, table) && where.Some? ==> r == ExecuteWhere(where.value, aliases, ch)
  {
    if EqualsIgnoreCase(TableName, table) then
      if where.Some? then ExecuteWhere(where.value, aliases, ch) else FullScan(ch)
    else
      Failure(UnidentifiedTable(table))
  }

  /** A block-number filter written directly fetches that block by number. */
  lemma FilterByBlockNumber(item: FilterItem, aliases: map<string, string>, ch: Channel, n: int, b: BlockInfo)
    requires item.column.Some? && EqualsIgnoreCase("blockNo", item.column.value)
    requires ParseIntegral(item.literal, LongMin, LongMax) == Some(n)
    requires ch.byNumber(n) == Success(b)
    ensures ExecuteSingle(item, aliases, ch) == Success([b])
  {
    assert IsFilterable(item.column.value);
  }

  /** A block-number literal that is not a long is an error, and nothing is fetched. */
  lemma FilterByMalformedBlockNumber(item: FilterItem, aliases: map<string, string>, ch: Channel)
    requires item.column.Some? && EqualsIgnoreCase("blockNo", item.column.value)
    requires ParseIntegral(item.literal, LongMin, LongMax).None?
    ensures ExecuteSingle(item, aliases, ch) == Failure(BadNumber(item.literal))
  {
    assert IsFilterable(item.column.value);
  }

  /** Filtering through an alias of a whitelisted column is filtering by that column. */
  lemma FilterThroughAlias(alias: string, column: string, cmp: Comparator, literal: string,
                           aliases: map<string, string>, ch: Channel)
    requires alias in aliases && aliases[alias] == column
    requires IsFilterable(column) && !IsFilterable(alias)
    ensures ExecuteSingle(FilterItem(Some(alias), cmp, literal), aliases, ch)
         == ExecuteSingle(FilterItem(Some(column), cmp, literal), aliases, ch)
  {
  }

  /** Only equality is implemented: every comparator behaves as `=`. */
  lemma ComparatorIgnored(item: FilterItem, cmp: Comparator, aliases: map<string, string>, ch: Channel)
    ensures ExecuteSingle(item.(comparator := cmp), aliases, ch) == ExecuteSingle(item, aliases, ch)
  {
  }

  /** A filter item without a column asks for a transaction id. */
  lemma FilterWithoutColumn(item: FilterItem, aliases: map<string, string>, ch: Channel)
    requires item.column.None?
    ensures ExecuteSingle(item, aliases, ch)
         == match ch.byTransactionId(StripQuotes(item.literal))
            case Success(b) => Success([b])
            case Failure(e) => Failure(LedgerFailure(e))
  {
    assert !EqualsIgnoreCase("blockNo", "") && !EqualsIgnoreCase("previousHash", "");
  }

  /** A rejected table name issues no fetch: the outcome is the same on every ledger. */
  lemma UnknownTableFetchesNothing(table: string, where: Option<Filter>, aliases: map<string, string>,
                                   ch1: Channel, ch2: Channel)
    requires !EqualsIgnoreCase(TableName, table)
    ensures GetFromTable(table, where, aliases, ch1) == GetFromTable(table, where, aliases, ch2)
  {
  }

  /** The scan never reads below its start: two ledgers that agree on the
      blocks from there up give the same scan. */
  lemma {:induction false} ScanIgnoresLowerBlocks(ch1: Channel, ch2: Channel, from: int, height: int)
    requires forall n :: from <= n ==> ch1.byNumber(n) == ch2.byNumber(n)
    ensures Scan(ch1, from, height) == Scan(ch2, from, height)
    decreases height - from
  {
    if from < height {
      ScanIgnoresLowerBlocks(ch1, ch2, from + 1, height);
    }
  }

  /** The genesis block is never fetched: ledgers that differ only in block 0
      give the same full scan. */
  lemma FullScanSkipsGenesis(ch1: Channel, ch2: Channel)
    requires ch1.height == ch2.height
    requires forall n :: n != 0 ==> ch1.byNumber(n) == ch2.byNumber(n)
    ensures FullScan(ch1) == FullScan(ch2)
  {
    if ch1.height.Success? {
      ScanIgnoresLowerBlocks(ch1, ch2, 1, ch1.height.value);
    }
  }

  /** AND of two filter items whose blocks have different previous hashes
      (for instance a block number and a hash that is not that block's
      predecessor) is empty. */
  lemma AndOfUnrelatedItemsIsEmpty(i1: FilterItem, i2: FilterItem, aliases: map<string, string>, ch: Channel)
    requires ExecuteSingle(i1, aliases, ch).Success? && ExecuteSingle(i2, aliases, ch).Success?
    requires Key(ExecuteSingle(i1, aliases, ch).value[0]) != Key(ExecuteSingle(i2, aliases, ch).value[0])
    ensures ExecuteWhere(Op(true, [Leaf(i1), Leaf(i2)]), aliases, ch) == Success([])
  {
    var a := ExecuteSingle(i1, aliases, ch).value;
    var b := ExecuteSingle(i2, aliases, ch).value;
    SingletonKeys(a);
    SingletonKeys(b);
    AndOfDisjointIsEmpty(a, b);
  }
}

=== FILE: wrappers.dfy ===
/** Failure-compatible wrappers used throughout the model: `Option` for values
    that may be absent (a Java `null`), `Result` for operations that may throw. */
module Wrappers {

  datatype Option<+T> = None | Some(value: T)

  datatype Result<+T, +E> = Success(value: T) | Failure(error: E) {

    predicate IsFailure() {
      Failure?
    }

    function PropagateFailure<U>(): Result<U, E>
      requires Failure?
    {
      Failure(error)
    }

    function Extract(): T
      requires Success?
    {
      value
    }
  }
}
